=== FILE: README.md ===
# IGP earthquake-report scraper: a Dafny model of `lambda_handler`

`lambda_handler` (scrap_table.py) is an AWS Lambda function. It collects the
latest earthquake reports of the Instituto Geofísico del Perú and stores
them as a snapshot in the DynamoDB table `TablaWebScrapping`. This project
models the function in Dafny and proves what it does.

The function works in three stages.

1. Extraction. It first probes five JSON endpoints. If none gives records,
   it fetches the report page and, while the list is still empty, tries in
   turn:
   - JSON arrays embedded in `<script>` elements;
   - the first HTML table;
   - CSS containers with a seismic class name;
   - text nodes that mention seismic words;
   - elements that look like dynamic-loading placeholders;
   - three fallback endpoints;
   - as a last resort, one diagnostic record that describes the page.

   An exception that escapes becomes a single error record. A network
   error gives a connection-error record; anything else gives a
   general-error record tagged with the exception's type name.
2. Persistence. The table is scanned and every item is deleted by its
   `id`. Then every record of this run is put. Failures here are only
   printed.
3. Reply. The reply is a 200 with a preview of the first three records.
   It is a 500 only when the DynamoDB client itself could not be created.

Modules, one file each:

- `values.dfy` (`Values`): the Python values a record holds and the few
  built-ins the function relies on. These are `dict.update`, slicing,
  `str()`/`repr()` and the 3.12 texts of the exceptions they raise.
- `records.dfy` (`Records`): the constants, the five metadata fields every
  record starts with, the error record, and `Collect`. `Collect` is the
  shared shape of the loops that keep some elements of a list and number
  them.
- `payload.dfy` (`Payload`): the API probe (lines 45-85), the
  embedded-script probe (96-133) and the fallback probe (237-267).
- `table.dfy` (`Table`): the table-to-record mapping (139-177).
- `page.dfy` (`PageScan`): the containers, text hits and structure
  analysis (180-234), and the diagnostic record (270-296).
- `cascade.dfy` (`Cascade`): the order of the strategies and the two outer
  `except` clauses (31-312). It also holds the two defects listed under
  `## Findings`: the `tables` read at line 139 and the `headers` rebinding
  at line 146.
- `snapshot.dfy` (`Snapshot`): the DynamoDB table as a class with `Scan`,
  `Delete`, `Put` and the scan-delete-put `Replace` (315-336).
- `handler.dfy` (`Handler`): the reply (338-361) and the whole handler, as
  written (`LambdaHandler`) and with both defects corrected
  (`LambdaHandlerGuarded`).

Stateful steps are methods proved against the functions that specify them.
They are the loops that append to `sismos_data` and the operations on the
table. Properties that relate several calls are lemmas about those
functions.

Some inputs are parameters because the model cannot compute them:
- Record ids are a function `ids: nat -> string`. The record at position
  `k` of the handler's list gets `ids(k)`. Distinct positions therefore
  stand for distinct `uuid4` values.
- Every `datetime.now().isoformat()` call is one parameter `now`.
- The network is a `Web` value, described in `## Left out`.
- The parsed page is a `Page` value, described in `## Left out`.

## Model

| member | source | states |
|---|---|---|
| Values.Prefix | scrap_table.py:54 | `s[:n]` has min(n, len s) elements and is a prefix of s |
| Values.Positions | scrap_table.py:162 | the kept indices are no more than the elements |
| Values.PositionsSpec | scrap_table.py:159-162 | the kept indices are in range, strictly increasing, exactly the elements satisfying the filter, in order |
| Values.PositionsAll | scrap_table.py:162 | when every element passes the filter, every index is kept |
| Values.DigitChar | scrap_table.py:355 | a decimal digit is the character of that value |
| Values.NatToString | scrap_table.py:355 | `str(n)` is a non-empty digit string without a leading zero |
| Values.NatToStringRoundTrip | scrap_table.py:355 | reading the digits of `str(n)` back gives n |
| Values.NatToStringInjective | scrap_table.py:355 | different counts give different texts |
| Values.FirstPositions | scrap_table.py:65 | the listed positions of a dict's keys lie inside the member list |
| Values.FirstPositionsFirst | scrap_table.py:65 | a listed position is the first member naming its key |
| Values.FirstPositionsCover | scrap_table.py:65 | every key of the object is listed |
| Values.FirstPositionsCoverAt | scrap_table.py:65 | the key of member i is listed |
| Values.FirstPositionsOrdered | scrap_table.py:65 | the listed positions increase and name pairwise different keys, so a decoded dict shows each key once |
| Values.FirstPositionsIncreasing | scrap_table.py:65 | the listed positions strictly increase |
| Values.LastIndex | scrap_table.py:65 | the last member with a key is found exactly when the key occurs, and its value is the one the dict keeps |
| Values.Repr | scrap_table.py:65 | `repr` of a list is bracketed, of a dict braced, of a string quoted with a matching quote |
| Values.StrReprRoundTrip | scrap_table.py:65 | the repr of a string, read back by undoing its escapes between the quotes, gives the string again |
| Values.EscapeRoundTrip | scrap_table.py:65 | undoing the escapes of a text escaped for either quote gives the text again |
| Values.StrReprPlain | scrap_table.py:65 | a string with no quote, backslash, `\n`, `\r` or `\t` is shown between single quotes unchanged; other control characters are not escaped in the model |
| Values.EscapePlain | scrap_table.py:65 | such a string gets no escape for either quote; other control characters are not escaped in the model |
| Values.ReprRepeatedKey | scrap_table.py:65 | an object with a repeated key shows it once with the later value: `{'a': 2}` |
| Values.Update | scrap_table.py:63 | `update` succeeds exactly for a dict, an empty string or an empty list |
| Values.UpdateErrors | scrap_table.py:76 | a failed `update` raises ValueError exactly for a string item and TypeError otherwise; every non-empty list item is taken to fail |
| Values.Sliced | scrap_table.py:68 | `v[:10]` succeeds exactly for a list or a string, gives at most ten items, a string's first characters one by one, and KeyError exactly for a dict |
| Values.Find | scrap_table.py:67 | `'sismos' in data` holds exactly when some entry has that key |
| Values.MergeFields | scrap_table.py:63 | after `update(item)` the keys are the old keys plus the item's, with the item's values winning and the others unchanged |
| Values.UpdateKeepsKeys | scrap_table.py:76 | a successful `update` never removes a key |
| Records.Collect | scrap_table.py:159-177 | a filtering loop never yields more records than it examines |
| Records.CollectKept | scrap_table.py:159-177 | record k is built from the k-th kept element, with its own index and list position base + k |
| Records.CollectKeyed | scrap_table.py:164 | when the builder always sets `id`, so does every record |
| Records.ErrorRecord | scrap_table.py:298-312 | an error record has exactly id, error, fecha_scraping and tipo_error; no numero or fuente; tipo_error is RequestException for a connection error and the exception's type name otherwise |
| Payload.PayloadRecord | scrap_table.py:54-66 | a payload record always holds the five metadata keys |
| Payload.PayloadRecordFields | scrap_table.py:55-66 | a dict item's keys are added to the metadata and win over it; metadata the item does not name keeps its value; any other item adds only `datos`, its `str()` |
| Payload.PayloadRecords | scrap_table.py:54-66 | one record per item |
| Payload.PayloadRecordKeyed | scrap_table.py:56 | a payload record always has an id |
| Payload.PayloadRecordsKeyed | scrap_table.py:56 | every payload record has an id, even when the item overrides it |
| Payload.BuildItem | scrap_table.py:55-66 | builds the record of one item |
| Payload.BuildPayload | scrap_table.py:54-66 | appends the records of the first ten items, numbered from 1, after the existing list |
| Payload.UpdateRecords | scrap_table.py:68-77 | without an exception every item gives a record; with one, fewer records than items |
| Payload.UpdateRecordsAt | scrap_table.py:68-77 | record i is item i updated into its metadata; the item at the stopping position is the one whose update raised, with that error |
| Payload.UpdateRecordsKeyed | scrap_table.py:69-76 | every updated record keeps its id key |
| Payload.UpdateRecordsStopped | scrap_table.py:68-77 | once an update raised, later items change nothing |
| Payload.GatherUpdates | scrap_table.py:68-77 | appends updated records until an update raises and reports that exception |
| Payload.EndpointRecords | scrap_table.py:47-83 | one endpoint contributes at most ten records; a 200 answer with a non-empty list gives exactly min(list length, 10) records, record i built from item i, and raises nothing |
| Payload.EndpointRecordsKeyed | scrap_table.py:55-75 | every record an endpoint contributes has an id |
| Payload.ApiProbe | scrap_table.py:45-85 | the probe yields at most ten records |
| Payload.ApiProbeStops | scrap_table.py:45-85 | the probe stops, with records or an exception, exactly when some endpoint does; otherwise it yields nothing and raises nothing |
| Payload.ApiProbeFirstStop | scrap_table.py:79-80 | the probe's outcome is exactly the first stopping endpoint's |
| Payload.ApiProbeKeyed | scrap_table.py:56 | every probe record has an id |
| Payload.ProbeApi | scrap_table.py:45-85 | the loop over the endpoints computes the probe's records and escaping exception |
| Payload.MatchRecords | scrap_table.py:113-127 | one pattern yields records exactly when it matched and decoded to a non-empty list, then exactly min(list length, 10), record i built from item i; never more than ten |
| Payload.ScriptRecords | scrap_table.py:109-130 | one script yields at most ten records |
| Payload.ScriptsRecords | scrap_table.py:96-133 | the script probe yields at most ten records |
| Payload.ScriptRecordsFirstHit | scrap_table.py:109-130 | a script yields records exactly when one of its patterns decodes to a non-empty array |
| Payload.ScriptRecordsFirstPattern | scrap_table.py:109-130 | a script's records are those of its first pattern that yields any; every earlier pattern yields none |
| Payload.ScriptsRecordsFirstHit | scrap_table.py:96-133 | the probe yields records exactly when some pattern of some script decodes to a non-empty array |
| Payload.ScriptsRecordsFirstPattern | scrap_table.py:96-133 | the probe's records are those of the first pattern that yields any: no pattern of an earlier script and no earlier pattern of its own script yields records |
| Payload.ScriptsRecordsKeyed | scrap_table.py:117 | every script record has an id |
| Payload.ProbePatterns | scrap_table.py:109-130 | the pattern loop of one script breaks at the first pattern that yields records |
| Payload.ProbeScripts | scrap_table.py:96-133 | the script loop breaks at the first script that yields records |
| Payload.FallbackEndpoint | scrap_table.py:248-265 | one fallback endpoint gives at most ten records, and none unless it answers 200 with a non-empty JSON list |
| Payload.FallbackWithBound | scrap_table.py:247-265 | when each endpoint contributes at most ten records, the loop gives at most ten per endpoint |
| Payload.FallbackEndpointsBound | scrap_table.py:253 | each fallback endpoint contributes at most ten records |
| Payload.FallbackRecordsBound | scrap_table.py:247-265 | the fallback probe gives at most ten records per endpoint, thirty in all |
| Payload.FallbackNoList | scrap_table.py:247-265 | when no endpoint answers a non-empty list, the fallback probe gives nothing |
| Payload.FallbackFirstList | scrap_table.py:247-263 | when the first endpoint answering a list updates without raising, the probe gives exactly that endpoint's records |
| Payload.FallbackRecordsKeyed | scrap_table.py:254-261 | every fallback record has an id |
| Payload.FallbackStep | scrap_table.py:248-263 | appends one endpoint's records and reports whether the probe ends there |
| Payload.ProbeFallback | scrap_table.py:237-267 | the fallback loop keeps the partial records of an endpoint whose update raised and goes on, stopping after the first endpoint that completes |
| Table.Headers | scrap_table.py:145-154 | the header texts of row 0, or the seven default names when there is no row or row 0 has no cells; never empty |
| Table.Examined | scrap_table.py:157-159 | at most ten data rows are examined: rows after the first, or the only row |
| Table.KeyForBeyondDistinct | scrap_table.py:173 | cells beyond the headers get distinct `campo_j` names |
| Table.KeyForMetadata | scrap_table.py:173-175 | a cell can overwrite a metadata field only through a header of that name |
| Table.FillCellsKeys | scrap_table.py:172-175 | the record's keys are its metadata keys plus one name per cell |
| Table.FillCellsLastWins | scrap_table.py:172-175 | a key holds the text of the last cell mapped to it |
| Table.FillCellsUntouched | scrap_table.py:163-175 | a metadata field no cell maps to keeps its value |
| Table.TableRecords | scrap_table.py:159-177 | no more records than rows |
| Table.KeptRows | scrap_table.py:162 | no more kept rows than rows |
| Table.TableStrategy | scrap_table.py:139-177 | the table strategy gives at most ten records |
| Table.TableRecordsNumbering | scrap_table.py:159-177 | one record per row with at least three cells, the kept rows in increasing order; without a `numero` header, record k is numbered by its row's index + 1, so numbers increase with gaps at skipped rows |
| Table.TableStrategyNumbering | scrap_table.py:139-177 | the same for the first table: at most ten records, row indices within 0..9 |
| Table.TableRecordNumero | scrap_table.py:163-175 | a row's record is numbered i + 1 unless a header is named `numero` |
| Table.TableStrategyKeyed | scrap_table.py:164 | every table record has an id |
| Table.TableStrategyFullRows | scrap_table.py:157-162 | when every data row has at least three cells, there are min(rows - 1, 10) records |
| Table.TableRecordCells | scrap_table.py:172-175 | a cell that no later cell shadows is stored as its text under its header name |
| Table.FillRow | scrap_table.py:172-175 | the cell loop maps every cell onto the record |
| Table.ScrapeRows | scrap_table.py:159-177 | the row loop appends the records of the examined rows |
| Table.ScrapeTable | scrap_table.py:139-177 | the table strategy appends the first table's records |
| PageScan.StringList | scrap_table.py:196 | a class list becomes a list of the same strings in order |
| PageScan.ContainerRecords | scrap_table.py:184-197 | no more records than containers |
| PageScan.ContainerRecordFields | scrap_table.py:189-197 | a container record has the seven fields, the first 300 characters of the text (all of it when shorter) and the whole class list |
| PageScan.ContainerStrategySpec | scrap_table.py:186-197 | at most five records; record k comes from the k-th container with more than 50 characters among the first five and is numbered base + k + 1 |
| PageScan.ContainerRecordsKeyed | scrap_table.py:190 | every container record has an id |
| PageScan.ScanContainers | scrap_table.py:184-197 | the container loop appends those records |
| PageScan.HitRecords | scrap_table.py:203-215 | no more records than hits |
| PageScan.HitRecordFields | scrap_table.py:206-215 | a hit record has the eight fields: numero i + 1, at most 100 characters of the hit and 200 of its parent's text, the parent's tag name |
| PageScan.HitStrategySpec | scrap_table.py:203-215 | at most ten records; record k comes from the k-th hit with a parent and is numbered by that hit's index + 1 |
| PageScan.HitRecordsKeyed | scrap_table.py:207 | every hit record has an id |
| PageScan.ScanHits | scrap_table.py:200-215 | the hit loop appends those records |
| PageScan.LoadingRecords | scrap_table.py:222-234 | no more records than elements |
| PageScan.LoadingRecordFields | scrap_table.py:223-234 | an element record has the nine fields, a non-empty id or class list, at most 200 characters of text and the fixed note |
| PageScan.LoadingStrategySpec | scrap_table.py:220-234 | at most three records; record k comes from the k-th element with an id or a class among the first three and is numbered base + k + 1 |
| PageScan.LoadingRecordsKeyed | scrap_table.py:225 | every element record has an id |
| PageScan.ScanLoading | scrap_table.py:218-234 | the element loop appends those records |
| PageScan.DiagnosticBaseFields | scrap_table.py:272-284 | the eleven base fields: numbered 1, the page's title, script, div and table counts, and the HTTP status |
| PageScan.DiagnosticRecordSpec | scrap_table.py:272-296 | the base fields keep their values; `indicadores_dinamicos` is present exactly when some element has a dynamic id, with 1 to 3 ids; `mensaje_noscript` exactly when there is a noscript element, with at most 100 characters |
| PageScan.Diagnose | scrap_table.py:270-296 | builds the diagnostic record |
| Cascade.HttpErrorText | scrap_table.py:90 | the HTTPError text starts with the status and ends with the page's URL |
| Cascade.HeadersList | scrap_table.py:249 | a request sent with the headers bound to a list never yields a list answer |
| Cascade.FallbackAsSentBlocks | scrap_table.py:146-265 | as written, once the page has a table the fallback probe gives nothing; without a table, or with the headers kept, it sees the true answers |
| Cascade.Stages | scrap_table.py:139-267 | the five page strategies, in order |
| Cascade.PageStrategies | scrap_table.py:139-296 | the page strategies always give at least one record |
| Cascade.PageStrategiesOrder | scrap_table.py:139-296 | the first strategy that yields records decides the page scan; when all five yield nothing, the diagnostic record stands alone |
| Cascade.ScanCases | scrap_table.py:139-296 | a page scan is the diagnostic alone or the records of the first strategy that yields any |
| Cascade.FirstOrLength | scrap_table.py:139-267 | the first non-empty strategy, or none when all are empty |
| Cascade.Strategies | scrap_table.py:45-139 | a probe hit gives one to ten records, an exception at most ten before it, and a page scan happens only on a fetched page without an HTTP error and gives some record |
| Cascade.Extraction | scrap_table.py:31-312 | as written, the list is never empty, and after a probe hit it ends with the UnboundLocalError record |
| Cascade.ExtractionGuarded | scrap_table.py:31-312 | with both defects corrected, the list is never empty and a probe hit's records stand alone |
| Cascade.DiagnosticWhenNothingFound | scrap_table.py:268-296 | as written, the diagnostic record is the whole list exactly when every strategy gave nothing; otherwise a page scan's list is the first non-empty strategy's records |
| Cascade.DiagnosticWhenNothingFoundGuarded | scrap_table.py:268-296 | the same with the defects corrected, the fallback seeing its true answers |
| Cascade.DiagnosticTagForged | scrap_table.py:58-63 | an API item naming its own `fuente` can carry the diagnostic's tag on a probe hit, so the tag alone does not identify the diagnostic |
| Cascade.ProbeHitCases | scrap_table.py:45-137 | a probe hit happens exactly when the API probe gave records without raising, or it gave nothing, the page was fetched and the script probe gave records; then there are one to ten records |
| Cascade.ExtractionUnboundAfterHit | scrap_table.py:136-139 | as written, a probe hit's records are always followed by an UnboundLocalError record |
| Cascade.UnboundTablesWitness | scrap_table.py:139 | an API whose first endpoint answers `[7]` yields the item's record and then the UnboundLocalError record |
| Cascade.ExtractionGuardedSpec | scrap_table.py:136-146 | with the defects corrected, a probe hit yields just its records, an exception ends both extractions alike, and a page scan differs only through the fallback and only when the page has a table |
| Cascade.PageStrategiesKeyed | scrap_table.py:139-296 | every page-strategy record has an id |
| Cascade.ExtractionKeyed | scrap_table.py:31-312 | every extracted record has an id, so no put is refused for a missing key |
| Cascade.PageFailureRecord | scrap_table.py:298-304 | a network error or HTTP error status on the page leaves exactly one RequestException error record |
| Cascade.FallbackExceedsCap | scrap_table.py:247-265 | the fallback probe can yield eleven records |
| Cascade.OneTablePageEmpty | scrap_table.py:139-234 | on a page whose only table has one short data row the four strategies before the fallback give nothing |
| Cascade.TableStrategyEmpty | scrap_table.py:159-162 | a data row with one cell gives no table record |
| Cascade.ApiProbeSilent | scrap_table.py:45-85 | an API that never answers gives nothing |
| Cascade.TableBlocksFallback | scrap_table.py:139-265 | as written, that page with a fallback endpoint answering `[{}]` yields only the diagnostic record |
| Cascade.TableKeptHeadersFallback | scrap_table.py:247-263 | with the headers kept the same run yields the endpoint's one IGP_API record |
| Cascade.ScanPage | scrap_table.py:139-296 | the page strategies in their order; as written the fallback requests carry the rebound headers |
| Cascade.Extract | scrap_table.py:31-312 | the extraction as written, including the UnboundLocalError record and the blocked fallback |
| Cascade.ExtractGuarded | scrap_table.py:31-312 | the extraction with `tables` bound and the request headers kept |
| Snapshot.StoredKeys | scrap_table.py:332-336 | after the puts, the keys are the old keys plus the id of every record whose put succeeded, that is did not fail and was accepted: a non-empty string id and no empty attribute name |
| Snapshot.StoredLastWriter | scrap_table.py:332-336 | a written record is stored under its id unless a later written record reuses the id |
| Snapshot.StoredUntouched | scrap_table.py:332-336 | an item no put overwrites keeps its value |
| Snapshot.StoredCount | scrap_table.py:332-336 | accepted records with distinct ids and no failures give one item per record |
| Snapshot.Store.constructor | scrap_table.py:320 | the table starts with the given items |
| Snapshot.Store.Scan | scrap_table.py:324-326 | the scan lists every key exactly once |
| Snapshot.Store.Delete | scrap_table.py:327 | removes exactly that key |
| Snapshot.Store.Put | scrap_table.py:334 | replaces the item with the record's id, and is refused exactly when DynamoDB refuses the item: the id is not a non-empty string, or an attribute name is empty |
| Snapshot.Store.Replace | scrap_table.py:323-336 | deletes scanned keys until the cleanup raises (all of them if it does not), then puts every record whose put does not raise |
| Snapshot.DistinctCount | scrap_table.py:324-327 | a scan of distinct keys is as long as the table |
| Snapshot.DistinctCard | scrap_table.py:324-327 | distinct keys form a set of the same size |
| Snapshot.CleanReplace | scrap_table.py:322-336 | when the cleanup did not raise and no put was made to fail, the table holds exactly the ids of this run's accepted records, each stored under its id unless a later accepted one reuses it |
| Snapshot.StaleSurvives | scrap_table.py:328-329 | when the cleanup raised, an item neither deleted nor overwritten survives from the previous run |
| Handler.CompletedMessageCount | scrap_table.py:355 | the count in the message reads back as the number of records |
| Handler.Respond | scrap_table.py:338-361 | the reply is a 200 exactly when there is nothing to store or the client was created, and a 500 otherwise |
| Handler.RespondSpec | scrap_table.py:338-361 | 200 with the completed body exactly when there is nothing to store or the client was created, with the total and a preview of the first three records; otherwise 500 with the extracted count |
| Handler.HandlerReply | scrap_table.py:315-361 | each reply reports at least one record, and it is a 200 exactly when the client was created |
| Handler.TableIdHeaderRefused | scrap_table.py:150-175 | a header row naming `id` overwrites the uuid with the cell's text, so a data row whose first cell is empty gives one record that DynamoDB refuses, though no header is empty |
| Handler.CleanRunTable | scrap_table.py:315-336 | a run in which no storage step raised leaves the table holding exactly the ids of this run's accepted records, for either extraction |
| Handler.Persist | scrap_table.py:315-336 | nothing changes without records or without a client; otherwise the table is replaced |
| Handler.LambdaHandler | scrap_table.py:10-361 | extract, persist, reply: the records are the as-written extraction's, the reply is the reply function's, and the table is as `Replace` leaves it |
| Handler.LambdaHandlerGuarded | scrap_table.py:10-361 | the same with the corrected extraction |

## Left out

- HTTP itself is not modelled: the session, timeouts and redirects. The API and fallback probes see the network as a function from URL to a transport error or a status with a decoded body. The page request gives a transport error or a status, a reason phrase and the parsed page. The request headers matter only once: after line 146 they are a list, and every request made with them raises before it is sent (`Cascade.HeadersList`).
- The HTTPError text always names the page URL. The real `response.url` is the URL after redirects.
- HTML parsing (BeautifulSoup) and regular-expression matching are not modelled. The page arrives pre-parsed as:
  - scripts, as one search result per pattern;
  - every table's rows, as cell texts (the table strategy reads the first; the diagnostic counts them all);
  - containers, with the text `get_text(strip=True)` and the classes;
  - text hits, with `str(element).strip()` and the parent;
  - structure elements;
  - the title, the div count, the dynamic ids and the noscript text.
- JSON decoding is not modelled: the body is either a decoded value or a decoding error.
- JSON floats are left out: values are null, booleans, integers, strings, lists and objects.
- `uuid.uuid4()` and `datetime.now()` become parameters (`ids` and one `now`), as described above.
- The boto3 client and the table handle are not modelled. Failures are given as data (`StoreFaults`): whether creating them raised, after how many deletes the cleanup raised, and which puts raised.
- Scan pagination is not modelled: `scan()` returns at most 1 MB per call, and the model scans everything. The batch writer's buffering is not modelled either.
- `print` of storage errors is not modelled.
- `json.dumps` of the body is not modelled. The reply carries the body as data. Key order in dicts is also not modelled, because records are maps.
- Values.Update, Values.UpdateErrors: a non-empty list item is always treated as raising the "not a sequence" TypeError. Updating from a list of key-value pairs is not modelled: in Python `{}.update(["ab"])` succeeds and `{}.update(["abc"])` raises ValueError, where the model raises TypeError for both.
- Values.StrRepr, Values.StrReprPlain, Values.EscapePlain: escapes the backslash, the chosen quote, `\n`, `\r` and `\t`. The `\x..`/`\u....` escapes Python uses for other non-printable characters are not modelled, so a text such as `"\x00"` is shown unchanged where Python shows `'\x00'`.
- The `'Sin respuesta'` branch of line 277 is not modelled. It cannot be reached, because `response` is always bound by the time the diagnostic is built.
- Some behaviours of the code that a reader might not expect, all modelled as the code has them:
  - default headers are used only when there is no row or row 0 has no cells;
  - rows are kept for having at least three cells, not three non-empty ones;
  - containers need more than 50 characters and at most five are examined;
  - the connection-error record is always tagged `RequestException`;
  - storage failures after client creation do not make the reply a 500;
  - the fallback probe is not capped at ten records (`Cascade.FallbackExceedsCap`); it gives at most ten per endpoint (`Payload.FallbackRecordsBound`);
  - the diagnostic's source tag can also appear on an API record whose item names its own `fuente` (`Cascade.DiagnosticTagForged`), so the diagnostic is identified by the run, not by the tag;
  - DynamoDB's key attribute is taken to be the string `id`: a put whose record has no `id`, a non-string one or an empty one raises and is skipped;
  - a header cell with no text makes every table record carry an attribute named `""`, and DynamoDB refuses such items, so none of them is stored (`Snapshot.Accepted`); an API item with a key `""` fares the same.
- A record fails DynamoDB's acceptance only when a payload item (API, script or fallback) or a table header named `id` overrides the id with something other than a non-empty string (`Handler.TableIdHeaderRefused`), or when an item key or a header cell is empty. That ids from `uuid4` are never empty is not stated as a requirement on `ids`.
- Snapshot.Store.Put: DynamoDB's other refusals are not modelled as refusals: an empty attribute name inside a nested map, a number beyond 38 digits, an item over 400 KB. A put they make raise is given through `failed`, like any other put that raises.
- Values.PyStr: has no contract of its own; it is `Values.Repr` except on strings.

## Findings

| source | as written | input that shows it | evidently intended | confidence | as-written member | corrected member |
|---|---|---|---|---|---|---|
| scrap_table.py:139 | `tables` is assigned only when both probes came back empty, but line 139 reads it on every path. After a successful API or script probe this raises UnboundLocalError, and the outer handler appends an error record after the data. | The first API endpoint answers 200 with `[7]` | Check `tables` only when it was assigned: a successful probe's records stand alone | not executed | Cascade.Extract (with Cascade.UnboundTablesWitness) | Cascade.ExtractGuarded (with Cascade.ExtractionGuardedSpec) |
| scrap_table.py:146 | Line 146 rebinds `headers`, the request-headers dict, to the table's header list whenever the page has a table. Every fallback request at line 249 then raises inside requests before it is sent, and the bare `except` at line 264 skips the endpoint, so the fallback never gives records after a table was found. | The page's only table is `[["a","b","c"],["x"]]`, nothing else matches, and the first fallback endpoint answers 200 with `[{}]`: the list is the diagnostic record instead of one IGP_API record | Keep the request headers in their own variable, so the fallback sees its endpoints' answers | not executed | Cascade.Extract (with Cascade.TableBlocksFallback and Cascade.FallbackAsSentBlocks) | Cascade.ExtractGuarded (with Cascade.TableKeptHeadersFallback, Cascade.PageStrategiesOrder and Cascade.DiagnosticWhenNothingFoundGuarded) |

`Handler.LambdaHandler` runs the extraction as written (`Cascade.Extract`,
specified by `Cascade.Extraction`). `Handler.LambdaHandlerGuarded` runs the
corrected one (`Cascade.ExtractGuarded`, specified by
`Cascade.ExtractionGuarded`). `Handler.HandlerReply` and
`Handler.CleanRunTable` cover both.

=== FILE: cascade.dfy ===
/**
 * The extraction cascade of `lambda_handler` (scrap_table.py:31-312): the API
 * probe, then the page with its script probe, table, CSS containers, text
 * patterns and structure analysis, then the fallback API and finally the
 * diagnostic record, each tried only while the list is still empty, with the
 * two outer `except` clauses turning an escaped exception into an error
 * record.
 *
 * As written, `tables` is assigned only when both probes came back empty,
 * yet it is read at line 139 whatever happened: a successful probe is always
 * followed by an UnboundLocalError record.  And line 146 rebinds `headers`,
 * the dict of request headers, to the table's header list, so once a table
 * was found every fallback request raises before it is sent.  `Extraction`
 * is that behaviour, `ExtractionGuarded` the evidently intended one.
 */
module Cascade {
  import opened Values
  import opened Records
  import opened Payload
  import opened Table
  import opened PageScan

  /** The page request: a transport error, or a status, its reason phrase and the parsed page. */
  datatype PageFetch = PageUnreachable(text: string) | PageResponse(status: int, reason: string, page: Page)

  /**
   * Everything the handler learns from the network: the answers to the API
   * probe, the page, and the answers to the fallback probe (queried later,
   * so a URL in both lists may answer differently).
   */
  datatype Web = Web(api: string -> Fetch, page: PageFetch, fallback: string -> Fetch)

  /** How the strategies ended, before the outer handlers and line 139 have their say. */
  datatype Outcome =
    | ProbeHit(records: seq<Record>)            // the API or the script probe gave records
    | Raised(records: seq<Record>, failure: Failure) // an exception escaped after these records
    | Scanned(records: seq<Record>)             // lines 139-296 ran to the end

  /** `raise_for_status` raises for client and server errors. */
  predicate IsHttpError(status: int)
  {
    400 <= status < 600
  }

  /** The text of the HTTPError `raise_for_status` raises: the status first, the page's URL last. */
  function HttpErrorText(status: int, reason: string): (t: string)
    ensures |t| >= |IntToString(status)| + |PAGE_URL| &&
            t[..|IntToString(status)|] == IntToString(status) && t[|t| - |PAGE_URL|..] == PAGE_URL
  {
    var head := IntToString(status) + (if status < 500 then " Client Error: " else " Server Error: ");
    var t := head + reason + " for url: " + PAGE_URL;
    assert t[..|IntToString(status)|] == IntToString(status);
    assert t[|t| - |PAGE_URL|..] == PAGE_URL;
    t
  }

  /** What requests raises when the headers it is given are a list rather than a dict. */
  const HEADERS_LIST_ERROR := "'list' object has no attribute 'items'"

  /**
   * A fallback request made with `headers` bound to a list: requests keeps a
   * non-dict value as the request's headers and fails reading it, before
   * anything is sent.  The bare `except` at line 264 treats that like a
   * transport error.
   */
  function HeadersList(url: string): (f: Fetch)
    ensures !ListAnswer(f)
  {
    Unreachable(HEADERS_LIST_ERROR)
  }

  /**
   * The answers the fallback probe sees.  Line 146 rebinds `headers` whenever
   * the page has a table, so as written (`keepHeaders` false) those answers
   * are all failures; with the request headers kept they are the endpoints'.
   */
  function FallbackAsSent(p: Page, fallback: string -> Fetch, keepHeaders: bool): string -> Fetch
  {
    if keepHeaders || p.tables == [] then fallback else HeadersList
  }

  /** Once a table was found the as-written fallback probe gives nothing; otherwise it sees the true answers. */
  lemma FallbackAsSentBlocks(p: Page, fallback: string -> Fetch, base: nat, ids: nat -> string, now: string)
    ensures p.tables != [] ==> FallbackRecords(FALLBACK_ENDPOINTS, FallbackAsSent(p, fallback, false), base, ids, now) == []
    ensures p.tables == [] ==> FallbackAsSent(p, fallback, false) == fallback
    ensures FallbackAsSent(p, fallback, true) == fallback
  {
    if p.tables != [] {
      FallbackNoList(FALLBACK_ENDPOINTS, HeadersList, base, ids, now);
    }
  }

  /**
   * The five page strategies in the order lines 139-267 try them: the first
   * table, the containers, the text hits, the structure analysis, the
   * fallback API.
   */
  function Stages(p: Page, fallback: string -> Fetch, ids: nat -> string, now: string): (st: seq<seq<Record>>)
    ensures |st| == 5
  {
    [if p.tables != [] then TableStrategy(p.tables[0], 0, ids, now) else [],
     ContainerRecords(Prefix(p.containers, MAX_CONTAINERS), 0, ids, now),
     HitRecords(Prefix(p.hits, MAX_RECORDS), 0, ids, now),
     LoadingRecords(Prefix(p.loading, MAX_STRUCTURE), 0, ids, now),
     FallbackRecords(FALLBACK_ENDPOINTS, fallback, 0, ids, now)]
  }

  /** Stage k is the first that yields records. */
  predicate FirstNonEmpty(st: seq<seq<Record>>, k: nat)
  {
    k < |st| && st[k] != [] && forall j :: 0 <= j < k ==> st[j] == []
  }

  /**
   * Lines 139-296 once the script probe came back empty: the first table, the
   * containers, the text hits, the structure analysis and the fallback API
   * in turn, the first that yields records winning; otherwise the diagnostic.
   */
  function PageStrategies(p: Page, status: int, fallback: string -> Fetch, ids: nat -> string, now: string)
    : (rs: seq<Record>)
    ensures rs != []
  {
    var t := if p.tables != [] then TableStrategy(p.tables[0], 0, ids, now) else [];
    if t != [] then t
    else
      var c := ContainerRecords(Prefix(p.containers, MAX_CONTAINERS), 0, ids, now);
      if c != [] then c
      else
        var h := HitRecords(Prefix(p.hits, MAX_RECORDS), 0, ids, now);
        if h != [] then h
        else
          var l := LoadingRecords(Prefix(p.loading, MAX_STRUCTURE), 0, ids, now);
          if l != [] then l
          else
            var f := FallbackRecords(FALLBACK_ENDPOINTS, fallback, 0, ids, now);
            if f != [] then f else [DiagnosticRecord(p, status, ids(0), now)]
  }

  /**
   * How the strategies end.  A probe hit gives one to ten records, an
   * exception at most ten before it, and the page scan always some record.
   */
  function Strategies(web: Web, ids: nat -> string, now: string): (o: Outcome)
    ensures o.ProbeHit? ==> o.records != [] && |o.records| <= MAX_RECORDS
    ensures o.Raised? ==> |o.records| <= MAX_RECORDS
    ensures o.Scanned? ==> o.records != [] && web.page.PageResponse? && !IsHttpError(web.page.status)
  {
    var g := ApiProbe(API_ENDPOINTS, web.api, ids, now);
    if g.raised.Some? then Raised(g.records, g.raised.value)
    else if g.records != [] then ProbeHit(g.records)
    else
      match web.page
      case PageUnreachable(t) => Raised([], RequestFailure(t))
      case PageResponse(status, reason, p) =>
        if IsHttpError(status) then Raised([], RequestFailure(HttpErrorText(status, reason)))
        else
          var js := ScriptsRecords(p.scripts, ids, now);
          if js != [] then ProbeHit(js) else Scanned(PageStrategies(p, status, FallbackAsSent(p, web.fallback, false), ids, now))
  }

  /** The UnboundLocalError record line 139 produces after a successful probe. */
  function UnboundTables(position: nat, ids: nat -> string, now: string): Record
  {
    ErrorRecord(GeneralFailure(UnboundLocal("tables")), ids(position), now)
  }

  /** `sismos_data` when the outer try ends, as the code is written: never empty, and a probe hit ends in the UnboundLocalError record. */
  function Extraction(web: Web, ids: nat -> string, now: string): (rs: seq<Record>)
    ensures rs != []
    ensures Strategies(web, ids, now).ProbeHit? ==> rs[|rs| - 1] == UnboundTables(|rs| - 1, ids, now)
  {
    match Strategies(web, ids, now)
    case ProbeHit(rs) => rs + [UnboundTables(|rs|, ids, now)]
    case Raised(rs, f) => rs + [ErrorRecord(f, ids(|rs|), now)]
    case Scanned(rs) => rs
  }

  /**
   * `sismos_data` with `tables` bound before line 139 and the request headers
   * kept: a successful probe's records stand alone, and the page scan's
   * fallback probe sees the endpoints' true answers.
   */
  function ExtractionGuarded(web: Web, ids: nat -> string, now: string): (rs: seq<Record>)
    ensures rs != []
    ensures Strategies(web, ids, now).ProbeHit? ==> rs == Strategies(web, ids, now).records
  {
    match Strategies(web, ids, now)
    case ProbeHit(rs) => rs
    case Raised(rs, f) => rs + [ErrorRecord(f, ids(|rs|), now)]
    case Scanned(_) => PageStrategies(web.page.page, web.page.status, web.fallback, ids, now)
  }

  // ---------------------------------------------------------------------
  // Properties

  /** A probe hit happens exactly when the API probe, or failing it the script probe of a fetched page, gave records. */
  lemma ProbeHitCases(web: Web, ids: nat -> string, now: string)
    ensures var g := ApiProbe(API_ENDPOINTS, web.api, ids, now);
      Strategies(web, ids, now).ProbeHit? <==>
        (g.raised.None? && g.records != []) ||
        (g == Gathered([], None) && web.page.PageResponse? && !IsHttpError(web.page.status) &&
         ScriptsRecords(web.page.page.scripts, ids, now) != [])
    ensures var o := Strategies(web, ids, now);
      o.ProbeHit? ==> o.records != [] && |o.records| <= MAX_RECORDS
  {
  }

  /**
   * As written, a successful probe's records are always followed by one
   * UnboundLocalError record, so the list has one more entry than the probe
   * gave and its last entry says the extraction failed.
   */
  lemma ExtractionUnboundAfterHit(web: Web, ids: nat -> string, now: string)
    requires Strategies(web, ids, now).ProbeHit?
    ensures var rs := Strategies(web, ids, now).records; var out := Extraction(web, ids, now);
      |out| == |rs| + 1 && out[..|rs|] == rs && out[|rs|] == UnboundTables(|rs|, ids, now)
    ensures var rs := Strategies(web, ids, now).records; var out := Extraction(web, ids, now);
      out[|rs|]["tipo_error"] == VStr("UnboundLocalError") && out[|rs|]["id"] == VStr(ids(|rs|))
  {
    var rs := Strategies(web, ids, now).records;
    assert (rs + [UnboundTables(|rs|, ids, now)])[..|rs|] == rs;
  }

  /** An API whose first endpoint answers `[7]`: the answer the error shows on. */
  function OneItemApi(url: string): Fetch
  {
    if url == API_ENDPOINTS[0] then Response(200, Json(VList([VInt(7)]))) else Unreachable("")
  }

  /** With that API the as-written list is the item's record and then the UnboundLocalError record. */
  lemma UnboundTablesWitness(page: PageFetch, fallback: string -> Fetch, ids: nat -> string, now: string)
    ensures var out := Extraction(Web(OneItemApi, page, fallback), ids, now);
      |out| == 2 && out[1] == UnboundTables(1, ids, now) && out[0]["datos"] == VStr("7")
  {
    var web := Web(OneItemApi, page, fallback);
    var g := EndpointRecords(API_ENDPOINTS[0], OneItemApi(API_ENDPOINTS[0]), ids, now);
    assert Prefix([VInt(7)], MAX_RECORDS) == [VInt(7)];
    assert g.records == [PayloadRecord(VInt(7), 0, ids(0), now, API_TAG, API_ENDPOINTS[0])];
    assert ApiProbe(API_ENDPOINTS, web.api, ids, now) == g;
    PayloadRecordFields(VInt(7), 0, ids(0), now, API_TAG, API_ENDPOINTS[0]);
  }

  /**
   * The two defects and nothing else separate the extractions: a successful
   * probe loses its UnboundLocalError record; an exception ends both alike;
   * a page scan differs only through the fallback probe, and only when the
   * page has a table.
   */
  lemma ExtractionGuardedSpec(web: Web, ids: nat -> string, now: string)
    ensures var o := Strategies(web, ids, now);
      o.ProbeHit? ==> ExtractionGuarded(web, ids, now) == o.records && |o.records| <= MAX_RECORDS
    ensures var rs := ExtractionGuarded(web, ids, now);
      Strategies(web, ids, now).ProbeHit? ==> Extraction(web, ids, now) == rs + [UnboundTables(|rs|, ids, now)]
    ensures Strategies(web, ids, now).Raised? ==> ExtractionGuarded(web, ids, now) == Extraction(web, ids, now)
    ensures Strategies(web, ids, now).Scanned? ==>
      ExtractionGuarded(web, ids, now) == PageStrategies(web.page.page, web.page.status, web.fallback, ids, now) &&
      (web.page.page.tables == [] ==> ExtractionGuarded(web, ids, now) == Extraction(web, ids, now))
  {
  }

  /**
   * The first strategy that yields records decides the page scan; when none
   * does, the diagnostic record stands alone.
   */
  lemma PageStrategiesOrder(p: Page, status: int, fallback: string -> Fetch, ids: nat -> string, now: string, k: nat)
    ensures FirstNonEmpty(Stages(p, fallback, ids, now), k) ==>
      PageStrategies(p, status, fallback, ids, now) == Stages(p, fallback, ids, now)[k]
    ensures (forall j :: 0 <= j < 5 ==> Stages(p, fallback, ids, now)[j] == []) ==>
      PageStrategies(p, status, fallback, ids, now) == [DiagnosticRecord(p, status, ids(0), now)]
  {
    var st := Stages(p, fallback, ids, now);
    if FirstNonEmpty(st, k) && k > 0 {
      assert st[0] == [];
      if k > 1 { assert st[1] == []; }
      if k > 2 { assert st[2] == []; }
      if k > 3 { assert st[3] == []; }
    }
    if forall j :: 0 <= j < 5 ==> st[j] == [] {
      assert st[0] == [] && st[1] == [] && st[2] == [] && st[3] == [] && st[4] == [];
    }
  }

  /**
   * Every strategy came back empty: the API probe, the page's script probe
   * and the five page strategies, the fallback as it is sent.
   */
  predicate NothingFound(web: Web, keepHeaders: bool, ids: nat -> string, now: string)
  {
    ApiProbe(API_ENDPOINTS, web.api, ids, now) == Gathered([], None) &&
    web.page.PageResponse? && !IsHttpError(web.page.status) &&
    ScriptsRecords(web.page.page.scripts, ids, now) == [] &&
    forall j :: 0 <= j < 5 ==>
      Stages(web.page.page, FallbackAsSent(web.page.page, web.fallback, keepHeaders), ids, now)[j] == []
  }

  /**
   * The diagnostic record appears exactly when every strategy came back
   * empty, and then alone; otherwise a page scan's list is the first
   * strategy's records.
   */
  lemma DiagnosticWhenNothingFound(web: Web, ids: nat -> string, now: string)
    ensures NothingFound(web, false, ids, now) ==>
      Strategies(web, ids, now).Scanned? &&
      Extraction(web, ids, now) == [DiagnosticRecord(web.page.page, web.page.status, ids(0), now)]
    ensures !NothingFound(web, false, ids, now) && Strategies(web, ids, now).Scanned? ==>
      exists k :: 0 <= k < 5 && FirstNonEmpty(Stages(web.page.page, FallbackAsSent(web.page.page, web.fallback, false), ids, now), k) &&
                  Extraction(web, ids, now) == Stages(web.page.page, FallbackAsSent(web.page.page, web.fallback, false), ids, now)[k]
  {
    if web.page.PageResponse? {
      ScanCases(web.page.page, web.page.status, FallbackAsSent(web.page.page, web.fallback, false), ids, now);
    }
  }

  /** The same with `tables` bound and the request headers kept. */
  lemma DiagnosticWhenNothingFoundGuarded(web: Web, ids: nat -> string, now: string)
    ensures NothingFound(web, true, ids, now) ==>
      ExtractionGuarded(web, ids, now) == [DiagnosticRecord(web.page.page, web.page.status, ids(0), now)]
    ensures !NothingFound(web, true, ids, now) && Strategies(web, ids, now).Scanned? ==>
      exists k :: 0 <= k < 5 && FirstNonEmpty(Stages(web.page.page, web.fallback, ids, now), k) &&
                  ExtractionGuarded(web, ids, now) == Stages(web.page.page, web.fallback, ids, now)[k]
  {
    if web.page.PageResponse? {
      ScanCases(web.page.page, web.page.status, web.fallback, ids, now);
      assert FallbackAsSent(web.page.page, web.fallback, true) == web.fallback;
    }
  }

  /** A page scan is the diagnostic alone, or the records of the first strategy that yields any. */
  lemma ScanCases(p: Page, status: int, fallback: string -> Fetch, ids: nat -> string, now: string)
    ensures (forall j :: 0 <= j < 5 ==> Stages(p, fallback, ids, now)[j] == []) ==>
      PageStrategies(p, status, fallback, ids, now) == [DiagnosticRecord(p, status, ids(0), now)]
    ensures !(forall j :: 0 <= j < 5 ==> Stages(p, fallback, ids, now)[j] == []) ==>
      exists k :: 0 <= k < 5 && FirstNonEmpty(Stages(p, fallback, ids, now), k) &&
                  PageStrategies(p, status, fallback, ids, now) == Stages(p, fallback, ids, now)[k]
  {
    var st := Stages(p, fallback, ids, now);
    var k := FirstOrLength(st);
    PageStrategiesOrder(p, status, fallback, ids, now, k);
  }

  /** The position of the first non-empty entry, or the length when there is none. */
  function FirstOrLength(st: seq<seq<Record>>): (k: nat)
    ensures k <= |st|
    ensures k < |st| <==> FirstNonEmpty(st, k)
    ensures k == |st| <==> forall j :: 0 <= j < |st| ==> st[j] == []
  {
    if st == [] then 0
    else if st[0] != [] then 0
    else
      var k := FirstOrLength(st[1..]);
      assert forall j :: 0 <= j < |st[1..]| ==> st[1..][j] == st[j + 1];
      k + 1
  }

  lemma PageStrategiesKeyed(p: Page, status: int, fallback: string -> Fetch, ids: nat -> string, now: string)
    ensures Keyed(PageStrategies(p, status, fallback, ids, now))
  {
    if p.tables != [] {
      TableStrategyKeyed(p.tables[0], 0, ids, now);
    }
    ContainerRecordsKeyed(Prefix(p.containers, MAX_CONTAINERS), 0, ids, now);
    HitRecordsKeyed(Prefix(p.hits, MAX_RECORDS), 0, ids, now);
    LoadingRecordsKeyed(Prefix(p.loading, MAX_STRUCTURE), 0, ids, now);
    FallbackRecordsKeyed(FALLBACK_ENDPOINTS, fallback, 0, ids, now);
  }

  /** Every record the extraction produces has an `id`, so none is refused for a missing key. */
  lemma ExtractionKeyed(web: Web, ids: nat -> string, now: string)
    ensures Keyed(Extraction(web, ids, now))
    ensures Keyed(ExtractionGuarded(web, ids, now))
  {
    ApiProbeKeyed(API_ENDPOINTS, web.api, ids, now);
    if web.page.PageResponse? {
      ScriptsRecordsKeyed(web.page.page.scripts, ids, now);
      PageStrategiesKeyed(web.page.page, web.page.status, web.fallback, ids, now);
      PageStrategiesKeyed(web.page.page, web.page.status, FallbackAsSent(web.page.page, web.fallback, false), ids, now);
    }
  }

  /**
   * A network fault on the page, or an HTTP error status, leaves exactly one
   * record: the connection error, tagged RequestException.
   */
  lemma PageFailureRecord(web: Web, ids: nat -> string, now: string)
    requires ApiProbe(API_ENDPOINTS, web.api, ids, now) == Gathered([], None)
    requires web.page.PageUnreachable? || IsHttpError(web.page.status)
    ensures var out := Extraction(web, ids, now);
      |out| == 1 && out[0]["tipo_error"] == VStr("RequestException") && out[0].Keys == ERROR_KEYS
  {
  }

  /**
   * The fallback probe is not capped at ten: a first endpoint whose second
   * item cannot be updated leaves one record and the loop goes on, so a
   * second endpoint with ten items brings the list to eleven.
   */
  function SplitFallback(url: string): Fetch
  {
    if url == FALLBACK_ENDPOINTS[0] then Response(200, Json(VList([VObj([]), VInt(0)])))
    else if url == FALLBACK_ENDPOINTS[1] then Response(200, Json(VList(seq(10, _ => VObj([])))))
    else Unreachable("")
  }

  lemma FallbackExceedsCap(ids: nat -> string, now: string)
    ensures |FallbackRecords(FALLBACK_ENDPOINTS, SplitFallback, 0, ids, now)| == MAX_RECORDS + 1
  {
    var u0, u1 := FALLBACK_ENDPOINTS[0], FALLBACK_ENDPOINTS[1];
    var first := [VObj([]), VInt(0)];
    assert Prefix(first, MAX_RECORDS) == first;
    assert first[..1] == [VObj([])];
    var g0 := UpdateRecords(first, API_TAG, u0, 0, ids, now);
    assert UpdateRecords(first[..1], API_TAG, u0, 0, ids, now).raised.None?;
    assert g0.raised.Some? && |g0.records| == 1;
    var second: seq<Value> := seq(10, _ => VObj([]));
    assert Prefix(second, MAX_RECORDS) == second;
    assert forall i :: 0 <= i < |second| ==> second[i] == VObj([]);
    UpdateRecordsAt(second, API_TAG, u1, 1, ids, now);
    var g1 := UpdateRecords(second, API_TAG, u1, 1, ids, now);
    assert g1.raised.None?;
    assert FALLBACK_ENDPOINTS[1..][0] == u1;
  }

  /** A page whose only table has a header row and one short row, and nothing else. */
  const ONE_TABLE_PAGE := Page([], [[["a", "b", "c"], ["x"]]], [], [], [], NoTitle, 0, [], None)

  /** An API that never answers. */
  function SilentApi(url: string): Fetch
  {
    Unreachable("")
  }

  /** A fallback whose first endpoint answers `[{}]`. */
  function OneObjectFallback(url: string): Fetch
  {
    if url == FALLBACK_ENDPOINTS[0] then Response(200, Json(VList([VObj([])]))) else Unreachable("")
  }

  /** On that page the four strategies before the fallback yield nothing, whatever the fallback answers. */
  lemma OneTablePageEmpty(fallback: string -> Fetch, ids: nat -> string, now: string)
    ensures var st := Stages(ONE_TABLE_PAGE, fallback, ids, now); st[0] == st[1] == st[2] == st[3] == []
  {
    TableStrategyEmpty(ids, now);
  }

  /**
   * The table yields nothing, so the fallback is reached; as written its
   * request raises and the list is the diagnostic alone.
   */
  lemma TableBlocksFallback(ids: nat -> string, now: string)
    ensures var web := Web(SilentApi, PageResponse(200, "OK", ONE_TABLE_PAGE), OneObjectFallback);
      Extraction(web, ids, now) == [DiagnosticRecord(ONE_TABLE_PAGE, 200, ids(0), now)]
  {
    var p := ONE_TABLE_PAGE;
    ApiProbeSilent(API_ENDPOINTS, ids, now);
    var sent := FallbackAsSent(p, OneObjectFallback, false);
    OneTablePageEmpty(sent, ids, now);
    FallbackAsSentBlocks(p, OneObjectFallback, 0, ids, now);
    PageStrategiesOrder(p, 200, sent, ids, now, 0);
  }

  /** With the headers kept the same run gives the fallback endpoint's one record, tagged IGP_API, instead. */
  lemma TableKeptHeadersFallback(ids: nat -> string, now: string)
    ensures var web := Web(SilentApi, PageResponse(200, "OK", ONE_TABLE_PAGE), OneObjectFallback);
      ExtractionGuarded(web, ids, now) == [Metadata(ids(0), 1, now, API_TAG, FALLBACK_ENDPOINTS[0])]
  {
    var p := ONE_TABLE_PAGE;
    ApiProbeSilent(API_ENDPOINTS, ids, now);
    OneTablePageEmpty(OneObjectFallback, ids, now);
    OneTablePageEmpty(FallbackAsSent(p, OneObjectFallback, false), ids, now);
    var u0 := FALLBACK_ENDPOINTS[0];
    assert Prefix([VObj([])], MAX_RECORDS) == [VObj([])];
    UpdateRecordsAt([VObj([])], API_TAG, u0, 0, ids, now);
    var g := FallbackEndpoint(u0, OneObjectFallback(u0), 0, ids, now);
    assert g.raised.None? && |g.records| == 1;
    assert g.records[0] == Merge(Metadata(ids(0), 1, now, API_TAG, u0), []);
    FallbackFirstList(FALLBACK_ENDPOINTS, OneObjectFallback, 0, ids, now, 0);
    assert FirstNonEmpty(Stages(p, OneObjectFallback, ids, now), 4);
    PageStrategiesOrder(p, 200, OneObjectFallback, ids, now, 4);
  }

  lemma {:induction false} ApiProbeSilent(urls: seq<string>, ids: nat -> string, now: string)
    ensures ApiProbe(urls, SilentApi, ids, now) == Gathered([], None)
  {
    if urls != [] {
      ApiProbeSilent(urls[1..], ids, now);
    }
  }

  lemma TableStrategyEmpty(ids: nat -> string, now: string)
    ensures TableStrategy(ONE_TABLE_PAGE.tables[0], 0, ids, now) == []
  {
    var t := ONE_TABLE_PAGE.tables[0];
    TableStrategyNumbering(t, 0, ids, now);
  }

  /**
   * The source tag does not tell the diagnostic apart: an API item that names
   * its own `fuente` overwrites the tag, so a probe hit can carry the
   * diagnostic's tag without the diagnostic being produced.
   */
  function ForgedTagApi(url: string): Fetch
  {
    if url == API_ENDPOINTS[0] then Response(200, Json(VList([VObj([Entry("fuente", VStr(DIAGNOSTIC_TAG))])])))
    else Unreachable("")
  }

  lemma DiagnosticTagForged(page: PageFetch, fallback: string -> Fetch, ids: nat -> string, now: string)
    ensures var web := Web(ForgedTagApi, page, fallback);
      Strategies(web, ids, now).ProbeHit? && !NothingFound(web, false, ids, now) &&
      ExtractionGuarded(web, ids, now)[0]["fuente"] == VStr(DIAGNOSTIC_TAG)
  {
    var web := Web(ForgedTagApi, page, fallback);
    var item := VObj([Entry("fuente", VStr(DIAGNOSTIC_TAG))]);
    var u := API_ENDPOINTS[0];
    assert Prefix([item], MAX_RECORDS) == [item];
    var g := EndpointRecords(u, ForgedTagApi(u), ids, now);
    assert g.records == [PayloadRecord(item, 0, ids(0), now, API_TAG, u)];
    assert ApiProbe(API_ENDPOINTS, ForgedTagApi, ids, now) == g;
    PayloadRecordFields(item, 0, ids(0), now, API_TAG, u);
    assert Find(item.entries, "fuente") == Some(VStr(DIAGNOSTIC_TAG));
  }

  // ---------------------------------------------------------------------
  // The cascade, step by step

  /**
   * Lines 139-296 with `tables` and `soup` bound, each step guarded by `if
   * not sismos_data`.  `sent` stands for the fallback answers as the requests
   * carrying `headers` get them; as written (`keepHeaders` false) the table
   * branch rebinds `headers` to a list and those requests all fail.
   */
  method ScanPage(p: Page, status: int, fallback: string -> Fetch, keepHeaders: bool, ids: nat -> string, now: string)
    returns (data: seq<Record>)
    ensures data == PageStrategies(p, status, FallbackAsSent(p, fallback, keepHeaders), ids, now)
  {
    data := [];
    var sent := fallback;
    var tables := p.tables;
    if tables != [] {
      if !keepHeaders {
        sent := HeadersList;
      }
      data := ScrapeTable(data, tables[0], ids, now);
    }
    if data == [] {
      data := ScanContainers(data, p.containers, ids, now);
      if data == [] {
        data := ScanHits(data, p.hits, ids, now);
      }
    }
    if data == [] {
      data := ScanLoading(data, p.loading, ids, now);
    }
    if data == [] {
      data := ProbeFallback(data, FALLBACK_ENDPOINTS, sent, ids, now);
    }
    if data == [] {
      var pageInfo := Diagnose(p, status, ids(|data|), now);
      data := data + [pageInfo];
    }
  }

  /**
   * Lines 31-312: `tables` is a local that only the innermost branch binds,
   * modelled as an Option; reading it while None raises UnboundLocalError.
   */
  method Extract(web: Web, ids: nat -> string, now: string) returns (data: seq<Record>)
    ensures data == Extraction(web, ids, now)
  {
    var raised;
    data, raised := ProbeApi(web.api, ids, now);
    if raised.Some? {
      data := data + [ErrorRecord(raised.value, ids(|data|), now)];
      return;
    }
    var tables: Option<seq<seq<Row>>> := None;
    var response := web.page;
    if data == [] {
      if response.PageUnreachable? {
        data := data + [ErrorRecord(RequestFailure(response.text), ids(|data|), now)];
        return;
      }
      if IsHttpError(response.status) {
        data := data + [ErrorRecord(RequestFailure(HttpErrorText(response.status, response.reason)), ids(|data|), now)];
        return;
      }
      data := ProbeScripts(response.page.scripts, ids, now);
      if data == [] {
        tables := Some(response.page.tables);
      }
    }
    if tables.None? {
      data := data + [ErrorRecord(GeneralFailure(UnboundLocal("tables")), ids(|data|), now)];
      return;
    }
    data := ScanPage(response.page, response.status, web.fallback, false, ids, now);
  }

  /**
   * Lines 31-312 with `tables` bound from the start and the request headers
   * kept: after a successful probe every later step is skipped and the list
   * is the probe's records; the fallback probe sees the true answers.
   */
  method ExtractGuarded(web: Web, ids: nat -> string, now: string) returns (data: seq<Record>)
    ensures data == ExtractionGuarded(web, ids, now)
  {
    var raised;
    data, raised := ProbeApi(web.api, ids, now);
    if raised.Some? {
      data := data + [ErrorRecord(raised.value, ids(|data|), now)];
      return;
    }
    var response := web.page;
    if data == [] {
      if response.PageUnreachable? {
        data := data + [ErrorRecord(RequestFailure(response.text), ids(|data|), now)];
        return;
      }
      if IsHttpError(response.status) {
        data := data + [ErrorRecord(RequestFailure(HttpErrorText(response.status, response.reason)), ids(|data|), now)];
        return;
      }
      data := ProbeScripts(response.page.scripts, ids, now);
      if data == [] {
        data := ScanPage(response.page, response.status, web.fallback, true, ids, now);
      }
    }
  }
}

=== FILE: handler.dfy ===
/**
 * `lambda_handler` end to end (scrap_table.py:10-361): extraction, the
 * replace of the table's contents, and the reply.  Only the creation of the
 * DynamoDB client can make the reply a 500; scan, delete and put failures
 * are printed and the reply stays a 200.  `LambdaHandler` runs the
 * extraction as written (`Cascade.Extract`); `LambdaHandlerGuarded` runs it
 * with `tables` bound and the request headers kept (`Cascade.ExtractGuarded`).
 */
module Handler {
  import opened Values
  import opened Records
  import opened Cascade
  import opened Snapshot
  import Table

  const REPLY_SOURCE := "IGP - Instituto Geofísico del Perú"
  const MAX_PREVIEW: nat := 3
  const MESSAGE_HEAD := "Scraping completado. Procesados "
  const MESSAGE_TAIL := " registros"
  const STORE_ERROR_HEAD := "Error con DynamoDB: "

  /** The reply body, before `json.dumps`. */
  datatype ReplyBody =
    | Completed(mensaje: string, total: nat, sismos: seq<Record>, fecha: string, fuente: string)
    | StoreFailed(error: string, extracted: nat)

  datatype Reply = Reply(statusCode: int, headers: map<string, string>, body: ReplyBody)

  const JSON_HEADERS: map<string, string> :=
    map["Content-Type" := "application/json", "Access-Control-Allow-Origin" := "*"]

  /**
   * The storage failures of one run: the text of the exception raised while
   * creating the client or the table handle, if any; how many deletes took
   * effect before the cleanup raised, if it did; which puts raised.
   */
  datatype StoreFaults = StoreFaults(client: Option<string>, cleanup: Option<nat>, failedPuts: set<nat>)

  function CompletedMessage(n: nat): string
  {
    MESSAGE_HEAD + NatToString(n) + MESSAGE_TAIL
  }

  /** The count in the message reads back as the number of records. */
  lemma CompletedMessageCount(n: nat)
    ensures var m := CompletedMessage(n); var h, t := |MESSAGE_HEAD|, |MESSAGE_TAIL|;
      |m| > h + t && m[..h] == MESSAGE_HEAD && m[|m| - t..] == MESSAGE_TAIL &&
      IsDigits(m[h..|m| - t]) && DigitsValue(m[h..|m| - t]) == n
  {
    var m := CompletedMessage(n);
    var h, t := |MESSAGE_HEAD|, |MESSAGE_TAIL|;
    assert m[h..|m| - t] == NatToString(n);
    NatToStringRoundTrip(n);
  }

  /** Lines 315-361: a 500 when the client could not be created for a non-empty list, a 200 otherwise. */
  function Respond(data: seq<Record>, client: Option<string>, now: string): (r: Reply)
    ensures r.statusCode == 200 <==> data == [] || client.None?
    ensures r.statusCode == 500 <==> !(data == [] || client.None?)
  {
    if data != [] && client.Some? then
      Reply(500, map[], StoreFailed(STORE_ERROR_HEAD + client.value, |data|))
    else
      Reply(200, JSON_HEADERS, Completed(CompletedMessage(|data|), |data|, Prefix(data, MAX_PREVIEW), now, REPLY_SOURCE))
  }

  /**
   * The reply is a 200 exactly when the client was created (or there was
   * nothing to store); both bodies report the number of records, and a 200
   * previews the first three of them.
   */
  lemma RespondSpec(data: seq<Record>, client: Option<string>, now: string)
    ensures var r := Respond(data, client, now);
      (r.statusCode == 200 <==> r.body.Completed?) && (r.statusCode == 500 <==> r.body.StoreFailed?)
    ensures var r := Respond(data, client, now); r.body.Completed? <==> data == [] || client.None?
    ensures var r := Respond(data, client, now);
      r.body.Completed? ==> r.body.total == |data| && |r.body.sismos| == Min(MAX_PREVIEW, |data|) &&
                            r.body.sismos <= data && r.headers == JSON_HEADERS
    ensures var r := Respond(data, client, now); r.body.StoreFailed? ==> r.body.extracted == |data| >= 1
  {
  }

  /**
   * Every reply of the handler reports at least one record, and it is a 200
   * exactly when the client was created, whichever extraction ran.
   */
  lemma HandlerReply(web: Web, ids: nat -> string, now: string, client: Option<string>)
    ensures var r := Respond(ExtractionGuarded(web, ids, now), client, now);
      (r.statusCode == 200 <==> client.None?) &&
      (r.body.Completed? ==> r.body.total >= 1) && (r.body.StoreFailed? ==> r.body.extracted >= 1)
    ensures var r := Respond(Extraction(web, ids, now), client, now);
      (r.statusCode == 200 <==> client.None?) &&
      (r.body.Completed? ==> r.body.total >= 1) && (r.body.StoreFailed? ==> r.body.extracted >= 1)
  {
  }

  /**
   * A table whose header row names `id` overwrites the uuid with that
   * column's text, so an empty cell there makes DynamoDB refuse the record.
   */
  lemma TableIdHeaderRefused(ids: nat -> string, now: string)
    requires ids(0) != ""
    ensures var t := [["id", "b", "c"], ["", "x", "y"]];
      var rs := Table.TableStrategy(t, 0, ids, now);
      |rs| == 1 && "" !in Table.Headers(t) && !Accepted(rs[0])
  {
    var t := [["id", "b", "c"], ["", "x", "y"]];
    var ex := Table.Examined(t);
    var h := Table.Headers(t);
    Table.TableStrategyFullRows(t, 0, ids, now);
    assert ex == [["", "x", "y"]];
    CollectKept(ex, Table.Filled, Table.RowBuilder(h, ids, now), 0);
    PositionsSpec(ex, Table.Filled);
    var rs := Table.TableStrategy(t, 0, ids, now);
    assert rs[0] == Table.TableRecord(h, ex[0], 0, ids(0), now);
    Table.TableRecordCells(h, ex[0], 0, ids(0), now, 0);
    assert Table.KeyFor(h, 0) == "id";
  }

  /**
   * A run in which no storage operation raised leaves the table holding
   * exactly this run's records that DynamoDB accepts, keyed by their ids,
   * whichever extraction ran.
   */
  lemma CleanRunTable(web: Web, ids: nat -> string, now: string, old_items: map<Value, Record>, purged: seq<Value>)
    requires forall k :: k in old_items ==> k in purged
    ensures var data := Extraction(web, ids, now); var s := Stored(old_items - (set k | k in purged), data, {});
      forall k :: k in s <==> exists i :: 0 <= i < |data| && Accepted(data[i]) && data[i]["id"] == k
    ensures var data := ExtractionGuarded(web, ids, now); var s := Stored(old_items - (set k | k in purged), data, {});
      forall k :: k in s <==> exists i :: 0 <= i < |data| && Accepted(data[i]) && data[i]["id"] == k
  {
    CleanReplace(old_items, purged, Extraction(web, ids, now));
    CleanReplace(old_items, purged, ExtractionGuarded(web, ids, now));
  }

  /** Lines 318-336: nothing happens without data or without a client; otherwise the table is replaced. */
  method Persist(store: Store, data: seq<Record>, faults: StoreFaults) returns (purged: seq<Value>)
    modifies store
    ensures data == [] || faults.client.Some? ==> purged == [] && store.items == old(store.items)
    ensures data != [] && faults.client.None? ==>
      (forall k :: k in purged ==> k in old(store.items)) &&
      (faults.cleanup.None? ==> forall k :: k in old(store.items) ==> k in purged) &&
      store.items == Stored(old(store.items) - (set k | k in purged), data, faults.failedPuts)
  {
    purged := [];
    if data != [] && faults.client.None? {
      purged := store.Replace(data, faults.cleanup, faults.failedPuts);
    }
  }

  /** The handler as written: extract, persist, reply.  `purged` names the keys the cleanup deleted. */
  method LambdaHandler(web: Web, ids: nat -> string, now: string, store: Store, faults: StoreFaults)
    returns (data: seq<Record>, reply: Reply, ghost purged: seq<Value>)
    modifies store
    ensures data == Extraction(web, ids, now)
    ensures reply == Respond(data, faults.client, now)
    ensures faults.client.Some? ==> store.items == old(store.items)
    ensures faults.client.None? ==>
      (forall k :: k in purged ==> k in old(store.items)) &&
      (faults.cleanup.None? ==> forall k :: k in old(store.items) ==> k in purged) &&
      store.items == Stored(old(store.items) - (set k | k in purged), data, faults.failedPuts)
  {
    data := Extract(web, ids, now);
    purged := Persist(store, data, faults);
    reply := Respond(data, faults.client, now);
  }

  /** The handler with `tables` bound and the request headers kept. */
  method LambdaHandlerGuarded(web: Web, ids: nat -> string, now: string, store: Store, faults: StoreFaults)
    returns (data: seq<Record>, reply: Reply, ghost purged: seq<Value>)
    modifies store
    ensures data == ExtractionGuarded(web, ids, now)
    ensures reply == Respond(data, faults.client, now)
    ensures faults.client.Some? ==> store.items == old(store.items)
    ensures faults.client.None? ==>
      (forall k :: k in purged ==> k in old(store.items)) &&
      (faults.cleanup.None? ==> forall k :: k in old(store.items) ==> k in purged) &&
      store.items == Stored(old(store.items) - (set k | k in purged), data, faults.failedPuts)
  {
    data := ExtractGuarded(web, ids, now);
    purged := Persist(store, data, faults);
    reply := Respond(data, faults.client, now);
  }
}

=== FILE: page.dfy ===
/**
 * What the handler reads from the parsed page once the scripts and the first
 * table gave nothing: substantial CSS containers (scrap_table.py:180-197),
 * text nodes that look seismic (199-215), elements that may be filled in
 * dynamically (217-234), and the last-resort diagnostic record (270-296).
 *
 * The page is given as the results of its queries: which elements match,
 * their `get_text(strip=True)` texts and their attributes.  Finding them is
 * HTML parsing and regular-expression matching, which the model does not do.
 */
module PageScan {
  import opened Values
  import opened Records
  import opened Payload
  import opened Table

  /** A `div`/`section`/`article` whose class matches the seismic pattern. */
  datatype Container = Container(text: string, classes: seq<string>)

  /** The element a matching text node sits in: its text and its tag name. */
  datatype Parent = Parent(text: string, name: string)

  /** A text node matching the seismic pattern: its text with surrounding whitespace stripped, and its parent element if any. */
  datatype TextHit = TextHit(text: string, parent: Option<Parent>)

  /** A `div`/`section` whose class matches the loading pattern; `id` is "" when absent. */
  datatype Loading = Loading(id: string, classes: seq<string>, text: string)

  /** `soup.title`: missing, or present with `.string` a text or None. */
  datatype Title = NoTitle | TitleText(s: string) | TitleNoString

  /**
   * The parsed page.  `noscript` is the text of the first `noscript` element,
   * None when there is none (a found element is always truthy, even empty).
   */
  datatype Page = Page(
    scripts: seq<Script>,
    tables: seq<seq<Row>>,
    containers: seq<Container>,
    hits: seq<TextHit>,
    loading: seq<Loading>,
    title: Title,
    divCount: nat,
    dynamicIds: seq<string>,
    noscript: Option<string>)

  const MAX_CONTENT: nat := 300
  const MAX_FOUND: nat := 100
  const MAX_CONTEXT: nat := 200
  const MAX_NOSCRIPT: nat := 100
  /** A container's text must be longer than this to count as substantial. */
  const MIN_CONTENT: nat := 50
  const NOTE := "Elemento que podría contener datos dinámicos"
  const NO_TITLE := "Sin título"
  const DIAGNOSTIC_STATE := "Análisis de estructura de página"

  /** A class attribute as a JSON list of strings. */
  function StringList(xs: seq<string>): (v: Value)
    ensures v.VList? && |v.items| == |xs|
    ensures forall i :: 0 <= i < |xs| ==> v.items[i] == VStr(xs[i])
  {
    VList(seq(|xs|, i requires 0 <= i < |xs| => VStr(xs[i])))
  }

  // ---------------------------------------------------------------------
  // CSS containers (180-197)

  predicate Substantial(c: Container)
  {
    |c.text| > MIN_CONTENT
  }

  /** The record of a substantial container. */
  function ContainerRecord(c: Container, numero: nat, id: string, now: string): Record
  {
    map["id" := VStr(id), "numero" := VInt(numero), "contenido" := VStr(Prefix(c.text, MAX_CONTENT)),
        "fecha_scraping" := VStr(now), "fuente" := VStr(CONTAINER_TAG), "url_origen" := VStr(PAGE_URL),
        "html_class" := StringList(c.classes)]
  }

  /** A container's record at list position p is numbered `len(sismos_data) + 1`, that is p + 1. */
  function ContainerBuilder(ids: nat -> string, now: string): (Container, nat, nat) -> Record
  {
    (c: Container, i: nat, p: nat) => ContainerRecord(c, p + 1, ids(p), now)
  }

  /** The records of the substantial containers among cs, appended after base earlier records. */
  function ContainerRecords(cs: seq<Container>, base: nat, ids: nat -> string, now: string): (rs: seq<Record>)
    ensures |rs| <= |cs|
  {
    Collect(cs, Substantial, ContainerBuilder(ids, now), base)
  }

  /** A container record holds the text's first 300 characters and the whole class list. */
  lemma ContainerRecordFields(c: Container, numero: nat, id: string, now: string)
    ensures var r := ContainerRecord(c, numero, id, now);
      r.Keys == {"id", "numero", "contenido", "fecha_scraping", "fuente", "url_origen", "html_class"}
    ensures var r := ContainerRecord(c, numero, id, now);
      r["contenido"].VStr? && |r["contenido"].s| <= MAX_CONTENT && r["contenido"].s <= c.text &&
      (|c.text| <= MAX_CONTENT ==> r["contenido"].s == c.text)
    ensures var r := ContainerRecord(c, numero, id, now);
      r["numero"] == VInt(numero) && r["html_class"] == StringList(c.classes)
  {
  }

  /**
   * At most five records; record k comes from the k-th substantial container
   * among the first five and is numbered base + k + 1, so the numbers run on
   * without gaps, unlike the table's.
   */
  lemma ContainerStrategySpec(cs: seq<Container>, base: nat, ids: nat -> string, now: string)
    ensures |ContainerRecords(Prefix(cs, MAX_CONTAINERS), base, ids, now)| <= MAX_CONTAINERS
    ensures var rs := ContainerRecords(Prefix(cs, MAX_CONTAINERS), base, ids, now); var ks := Positions(Prefix(cs, MAX_CONTAINERS), Substantial);
      |ks| == |rs| &&
      forall k :: 0 <= k < |rs| ==>
                    (ks[k] < Min(MAX_CONTAINERS, |cs|) && Substantial(cs[ks[k]]) &&
                     rs[k] == ContainerRecord(cs[ks[k]], base + k + 1, ids(base + k), now))
    ensures var ks := Positions(Prefix(cs, MAX_CONTAINERS), Substantial);
      forall k, k' :: 0 <= k < k' < |ks| ==> ks[k] < ks[k']
  {
    var ex := Prefix(cs, MAX_CONTAINERS);
    CollectKept(ex, Substantial, ContainerBuilder(ids, now), base);
    PositionsSpec(ex, Substantial);
    var ks := Positions(ex, Substantial);
    forall k | 0 <= k < |ks| ensures ex[ks[k]] == cs[ks[k]] {
    }
  }

  lemma ContainerRecordsKeyed(cs: seq<Container>, base: nat, ids: nat -> string, now: string)
    ensures Keyed(ContainerRecords(cs, base, ids, now))
  {
    forall x: Container, i: nat, p: nat ensures "id" in ContainerBuilder(ids, now)(x, i, p) {
      assert ContainerBuilder(ids, now)(x, i, p) == ContainerRecord(x, p + 1, ids(p), now);
    }
    CollectKeyed(cs, Substantial, ContainerBuilder(ids, now), base);
  }

  /** Lines 184-197: the first five containers, each substantial one appended. */
  method ScanContainers(acc: seq<Record>, cs: seq<Container>, ids: nat -> string, now: string) returns (out: seq<Record>)
    ensures out == acc + ContainerRecords(Prefix(cs, MAX_CONTAINERS), |acc|, ids, now)
  {
    var examined := Prefix(cs, MAX_CONTAINERS);
    out := acc;
    for i := 0 to |examined|
      invariant out == acc + ContainerRecords(examined[..i], |acc|, ids, now)
    {
      var container := examined[i];
      assert examined[..i + 1][..i] == examined[..i];
      if |container.text| > MIN_CONTENT {
        out := out + [ContainerRecord(container, |out| + 1, ids(|out|), now)];
      }
    }
    assert examined[..|examined|] == examined;
  }

  // ---------------------------------------------------------------------
  // Text patterns (199-215)

  predicate HasParent(h: TextHit)
  {
    h.parent.Some?
  }

  /** The record of hit i: numero i + 1, the hit's text and its parent's. */
  function HitRecord(h: TextHit, i: nat, id: string, now: string): Record
  {
    var parent := if h.parent.Some? then h.parent.value else Parent("", "");
    map["id" := VStr(id), "numero" := VInt(i + 1), "texto_encontrado" := VStr(Prefix(h.text, MAX_FOUND)),
        "contexto_padre" := VStr(Prefix(parent.text, MAX_CONTEXT)), "fecha_scraping" := VStr(now),
        "fuente" := VStr(TEXT_TAG), "url_origen" := VStr(PAGE_URL), "tag_padre" := VStr(parent.name)]
  }

  /** Hit i's record is numbered by the hit's own index. */
  function HitBuilder(ids: nat -> string, now: string): (TextHit, nat, nat) -> Record
  {
    (h: TextHit, i: nat, p: nat) => HitRecord(h, i, ids(p), now)
  }

  /** The records of the hits that have a parent. */
  function HitRecords(hs: seq<TextHit>, base: nat, ids: nat -> string, now: string): (rs: seq<Record>)
    ensures |rs| <= |hs|
  {
    Collect(hs, HasParent, HitBuilder(ids, now), base)
  }

  /** A hit's record: numero i + 1, found text at most 100 characters, parent text at most 200, the parent's tag. */
  lemma HitRecordFields(h: TextHit, i: nat, id: string, now: string)
    requires h.parent.Some?
    ensures var r := HitRecord(h, i, id, now);
      r.Keys == {"id", "numero", "texto_encontrado", "contexto_padre", "fecha_scraping", "fuente", "url_origen", "tag_padre"}
    ensures var r := HitRecord(h, i, id, now);
      r["numero"] == VInt(i + 1) && r["tag_padre"] == VStr(h.parent.value.name) &&
      r["texto_encontrado"] == VStr(Prefix(h.text, MAX_FOUND)) && |Prefix(h.text, MAX_FOUND)| <= MAX_FOUND &&
      r["contexto_padre"] == VStr(Prefix(h.parent.value.text, MAX_CONTEXT)) &&
      |Prefix(h.parent.value.text, MAX_CONTEXT)| <= MAX_CONTEXT
  {
  }

  /**
   * At most ten records; record k comes from the k-th hit with a parent and
   * is numbered by that hit's index + 1, so the numbers lie within 1..10 and
   * increase, with gaps where a hit had no parent.
   */
  lemma HitStrategySpec(hs: seq<TextHit>, base: nat, ids: nat -> string, now: string)
    ensures |HitRecords(Prefix(hs, MAX_RECORDS), base, ids, now)| <= MAX_RECORDS
    ensures var rs := HitRecords(Prefix(hs, MAX_RECORDS), base, ids, now); var ks := Positions(Prefix(hs, MAX_RECORDS), HasParent);
      |ks| == |rs| &&
      forall k :: 0 <= k < |rs| ==>
                    (ks[k] < Min(MAX_RECORDS, |hs|) && hs[ks[k]].parent.Some? &&
                     rs[k] == HitRecord(hs[ks[k]], ks[k], ids(base + k), now) && 1 <= ks[k] + 1 <= MAX_RECORDS)
    ensures var ks := Positions(Prefix(hs, MAX_RECORDS), HasParent);
      forall k, k' :: 0 <= k < k' < |ks| ==> ks[k] < ks[k']
  {
    var ex := Prefix(hs, MAX_RECORDS);
    CollectKept(ex, HasParent, HitBuilder(ids, now), base);
    PositionsSpec(ex, HasParent);
    var ks := Positions(ex, HasParent);
    forall k | 0 <= k < |ks| ensures ex[ks[k]] == hs[ks[k]] {
    }
  }

  lemma HitRecordsKeyed(hs: seq<TextHit>, base: nat, ids: nat -> string, now: string)
    ensures Keyed(HitRecords(hs, base, ids, now))
  {
    forall x: TextHit, i: nat, p: nat ensures "id" in HitBuilder(ids, now)(x, i, p) {
      assert HitBuilder(ids, now)(x, i, p) == HitRecord(x, i, ids(p), now);
    }
    CollectKeyed(hs, HasParent, HitBuilder(ids, now), base);
  }

  /** Lines 202-215: the first ten hits, each one with a parent appended. */
  method ScanHits(acc: seq<Record>, hs: seq<TextHit>, ids: nat -> string, now: string) returns (out: seq<Record>)
    ensures out == acc + HitRecords(Prefix(hs, MAX_RECORDS), |acc|, ids, now)
  {
    var examined := Prefix(hs, MAX_RECORDS);
    out := acc;
    for i := 0 to |examined|
      invariant out == acc + HitRecords(examined[..i], |acc|, ids, now)
    {
      var element := examined[i];
      assert examined[..i + 1][..i] == examined[..i];
      if element.parent.Some? {
        out := out + [HitRecord(element, i, ids(|out|), now)];
      }
    }
    assert examined[..|examined|] == examined;
  }

  // ---------------------------------------------------------------------
  // Structure analysis (217-234)

  /** `element.get('id') or element.get('class')`: a non-empty id or a non-empty class list. */
  predicate Identified(e: Loading)
  {
    e.id != [] || e.classes != []
  }

  function LoadingRecord(e: Loading, numero: nat, id: string, now: string): Record
  {
    map["id" := VStr(id), "numero" := VInt(numero), "elemento_id" := VStr(e.id),
        "elemento_class" := StringList(e.classes), "contenido_parcial" := VStr(Prefix(e.text, MAX_CONTEXT)),
        "fecha_scraping" := VStr(now), "fuente" := VStr(STRUCTURE_TAG), "url_origen" := VStr(PAGE_URL),
        "nota" := VStr(NOTE)]
  }

  /** An element's record at list position p is numbered p + 1. */
  function LoadingBuilder(ids: nat -> string, now: string): (Loading, nat, nat) -> Record
  {
    (e: Loading, i: nat, p: nat) => LoadingRecord(e, p + 1, ids(p), now)
  }

  /** The records of the identified elements among es, appended after base earlier records. */
  function LoadingRecords(es: seq<Loading>, base: nat, ids: nat -> string, now: string): (rs: seq<Record>)
    ensures |rs| <= |es|
  {
    Collect(es, Identified, LoadingBuilder(ids, now), base)
  }

  /** An identified element's record names its id or its classes, its first 200 characters and the fixed note. */
  lemma LoadingRecordFields(e: Loading, numero: nat, id: string, now: string)
    requires Identified(e)
    ensures var r := LoadingRecord(e, numero, id, now);
      r.Keys == {"id", "numero", "elemento_id", "elemento_class", "contenido_parcial", "fecha_scraping",
                 "fuente", "url_origen", "nota"}
    ensures var r := LoadingRecord(e, numero, id, now);
      r["numero"] == VInt(numero) && r["nota"] == VStr(NOTE) &&
      (r["elemento_id"] != VStr("") || r["elemento_class"] != VList([])) &&
      r["contenido_parcial"].VStr? && |r["contenido_parcial"].s| <= MAX_CONTEXT
  {
    if e.id == [] {
      assert |StringList(e.classes).items| > 0;
    }
  }

  /** At most three records; record k comes from the k-th identified element among the first three and is numbered base + k + 1. */
  lemma LoadingStrategySpec(es: seq<Loading>, base: nat, ids: nat -> string, now: string)
    ensures |LoadingRecords(Prefix(es, MAX_STRUCTURE), base, ids, now)| <= MAX_STRUCTURE
    ensures var rs := LoadingRecords(Prefix(es, MAX_STRUCTURE), base, ids, now); var ks := Positions(Prefix(es, MAX_STRUCTURE), Identified);
      |ks| == |rs| &&
      forall k :: 0 <= k < |rs| ==>
                    (ks[k] < Min(MAX_STRUCTURE, |es|) && Identified(es[ks[k]]) &&
                     rs[k] == LoadingRecord(es[ks[k]], base + k + 1, ids(base + k), now))
    ensures var ks := Positions(Prefix(es, MAX_STRUCTURE), Identified);
      forall k, k' :: 0 <= k < k' < |ks| ==> ks[k] < ks[k']
  {
    var ex := Prefix(es, MAX_STRUCTURE);
    CollectKept(ex, Identified, LoadingBuilder(ids, now), base);
    PositionsSpec(ex, Identified);
    var ks := Positions(ex, Identified);
    forall k | 0 <= k < |ks| ensures ex[ks[k]] == es[ks[k]] {
    }
  }

  lemma LoadingRecordsKeyed(es: seq<Loading>, base: nat, ids: nat -> string, now: string)
    ensures Keyed(LoadingRecords(es, base, ids, now))
  {
    forall x: Loading, i: nat, p: nat ensures "id" in LoadingBuilder(ids, now)(x, i, p) {
      assert LoadingBuilder(ids, now)(x, i, p) == LoadingRecord(x, p + 1, ids(p), now);
    }
    CollectKeyed(es, Identified, LoadingBuilder(ids, now), base);
  }

  /** Lines 221-234: the first three elements, each identified one appended. */
  method ScanLoading(acc: seq<Record>, es: seq<Loading>, ids: nat -> string, now: string) returns (out: seq<Record>)
    ensures out == acc + LoadingRecords(Prefix(es, MAX_STRUCTURE), |acc|, ids, now)
  {
    var examined := Prefix(es, MAX_STRUCTURE);
    out := acc;
    for i := 0 to |examined|
      invariant out == acc + LoadingRecords(examined[..i], |acc|, ids, now)
    {
      var element := examined[i];
      assert examined[..i + 1][..i] == examined[..i];
      if element.id != [] || element.classes != [] {
        out := out + [LoadingRecord(element, |out| + 1, ids(|out|), now)];
      }
    }
    assert examined[..|examined|] == examined;
  }

  // ---------------------------------------------------------------------
  // The diagnostic record (270-296)

  function TitleValue(t: Title): Value
  {
    match t
    case NoTitle => VStr(NO_TITLE)
    case TitleText(s) => VStr(s)
    case TitleNoString => VNull
  }

  /** The fields every diagnostic record has. */
  function DiagnosticBase(p: Page, status: int, id: string, now: string): Record
  {
    map["id" := VStr(id), "numero" := VInt(1), "estado" := VStr(DIAGNOSTIC_STATE),
        "html_title" := TitleValue(p.title), "respuesta_status" := VInt(status),
        "total_scripts" := VInt(|p.scripts|), "total_divs" := VInt(p.divCount),
        "total_tables" := VInt(|p.tables|), "fecha_scraping" := VStr(now),
        "fuente" := VStr(DIAGNOSTIC_TAG), "url_origen" := VStr(PAGE_URL)]
  }

  const DIAGNOSTIC_KEYS: set<string> := {"id", "numero", "estado", "html_title", "respuesta_status",
    "total_scripts", "total_divs", "total_tables", "fecha_scraping", "fuente", "url_origen"}

  /** The diagnostic record: the base fields, then the dynamic ids and the noscript text when present. */
  function DiagnosticRecord(p: Page, status: int, id: string, now: string): Record
  {
    var info := DiagnosticBase(p, status, id, now);
    var info := if p.dynamicIds != [] then info["indicadores_dinamicos" := StringList(Prefix(p.dynamicIds, MAX_STRUCTURE))] else info;
    if p.noscript.Some? then info["mensaje_noscript" := VStr(Prefix(p.noscript.value, MAX_NOSCRIPT))] else info
  }

  /** The base fields: numbered 1, the page's counts and title, and the HTTP status. */
  lemma DiagnosticBaseFields(p: Page, status: int, id: string, now: string)
    ensures var r := DiagnosticBase(p, status, id, now);
      r.Keys == DIAGNOSTIC_KEYS
    ensures var r := DiagnosticBase(p, status, id, now);
      r["numero"] == VInt(1) && r["fuente"] == VStr(DIAGNOSTIC_TAG) && r["respuesta_status"] == VInt(status) &&
      r["total_scripts"] == VInt(|p.scripts|) && r["total_tables"] == VInt(|p.tables|) &&
      r["total_divs"] == VInt(p.divCount) && r["html_title"] == TitleValue(p.title)
  {
  }

  /**
   * The diagnostic record has the eleven base fields, `indicadores_dinamicos`
   * exactly when some element has a dynamic-looking id (then at most three of
   * them), `mensaje_noscript` exactly when the page has a noscript element
   * (at most 100 characters); the base fields keep their values.
   */
  lemma DiagnosticRecordSpec(p: Page, status: int, id: string, now: string)
    ensures var r := DiagnosticRecord(p, status, id, now);
      r.Keys == DIAGNOSTIC_KEYS + (if p.dynamicIds != [] then {"indicadores_dinamicos"} else {}) +
        (if p.noscript.Some? then {"mensaje_noscript"} else {})
    ensures var r := DiagnosticRecord(p, status, id, now);
      forall k :: k in DIAGNOSTIC_KEYS ==> r[k] == DiagnosticBase(p, status, id, now)[k]
    ensures var r := DiagnosticRecord(p, status, id, now);
      p.dynamicIds != [] ==> r["indicadores_dinamicos"].VList? && 1 <= |r["indicadores_dinamicos"].items| <= MAX_STRUCTURE
    ensures var r := DiagnosticRecord(p, status, id, now);
      p.noscript.Some? ==> r["mensaje_noscript"].VStr? && |r["mensaje_noscript"].s| <= MAX_NOSCRIPT
  {
    DiagnosticBaseFields(p, status, id, now);
    var base := DiagnosticBase(p, status, id, now);
    var mid := if p.dynamicIds != [] then base["indicadores_dinamicos" := StringList(Prefix(p.dynamicIds, MAX_STRUCTURE))] else base;
    assert mid.Keys == DIAGNOSTIC_KEYS + (if p.dynamicIds != [] then {"indicadores_dinamicos"} else {});
    assert forall k :: k in DIAGNOSTIC_KEYS ==> mid[k] == base[k];
  }

  /** Lines 272-296: the base dict, then the optional fields added in place. */
  method Diagnose(p: Page, status: int, id: string, now: string) returns (info: Record)
    ensures info == DiagnosticRecord(p, status, id, now)
  {
    info := DiagnosticBase(p, status, id, now);
    if p.dynamicIds != [] {
      info := info["indicadores_dinamicos" := StringList(Prefix(p.dynamicIds, MAX_STRUCTURE))];
    }
    if p.noscript.Some? {
      info := info["mensaje_noscript" := VStr(Prefix(p.noscript.value, MAX_NOSCRIPT))];
    }
  }
}

=== FILE: payload.dfy ===
/**
 * The three strategies that read structured payloads instead of markup:
 * the API probe run before the page is fetched (scrap_table.py:45-85), the
 * probe of JSON arrays embedded in the page's scripts (96-133) and the
 * fallback API probe run when every page strategy came back empty (237-267).
 *
 * The network is a function from URL to outcome; JSON decoding and the
 * regular-expression search of scripts are done before the model sees them.
 * The record appended at position k of the handler's list gets id `ids(k)`.
 */
module Payload {
  import opened Values
  import opened Records

  /** What `response.json()` gives: a decoded value, or a decoding error. */
  datatype Body = NotJson | Json(v: Value)

  /** What `session.get(url)` gives: a transport error, or a status and a body. */
  datatype Fetch = Unreachable(text: string) | Response(status: int, body: Body)

  /** Records gathered so far, and the exception that interrupted them, if any. */
  datatype Gathered = Gathered(records: seq<Record>, raised: Option<Failure>)

  /** For one pattern of one script: no match, or the decoded first group. */
  datatype Match = NoMatch | Matched(decoded: Body)

  /** A script element: no text (`script.string` empty or None), or one search result per pattern. */
  datatype Script = NoText | ScriptText(matches: seq<Match>)

  // ---------------------------------------------------------------------
  // Building records from payload items (54-66, 115-127)

  /**
   * The record for item i: metadata first, then a dict item's own keys on top
   * (so they win), or the item's str() under `datos`.
   */
  function PayloadRecord(item: Value, i: nat, id: string, now: string, fuente: string, url: string): (r: Record)
    ensures METADATA_KEYS <= r.Keys
  {
    var meta := Metadata(id, i + 1, now, fuente, url);
    if item.VObj? then
      MergeFields(meta, item.entries);
      Merge(meta, item.entries)
    else meta["datos" := VStr(PyStr(item))]
  }

  /**
   * A payload record holds the metadata keys and a dict item's own keys; the
   * item's values win, metadata the item does not name keeps its value; any
   * other item adds only `datos`, its str().
   */
  lemma PayloadRecordFields(item: Value, i: nat, id: string, now: string, fuente: string, url: string)
    ensures var r := PayloadRecord(item, i, id, now, fuente, url);
      item.VObj? ==> forall k :: k in r <==> k in METADATA_KEYS || Find(item.entries, k).Some?
    ensures var r := PayloadRecord(item, i, id, now, fuente, url);
      item.VObj? ==> forall k :: Find(item.entries, k).Some? ==> r[k] == Find(item.entries, k).value
    ensures var r := PayloadRecord(item, i, id, now, fuente, url);
      item.VObj? ==> forall k :: k in METADATA_KEYS && Find(item.entries, k).None? ==>
                                 r[k] == Metadata(id, i + 1, now, fuente, url)[k]
    ensures var r := PayloadRecord(item, i, id, now, fuente, url);
      !item.VObj? ==> (r.Keys == METADATA_KEYS + {"datos"} && r["datos"] == VStr(PyStr(item)) &&
                       forall k :: k in METADATA_KEYS ==> r[k] == Metadata(id, i + 1, now, fuente, url)[k])
  {
    if item.VObj? {
      MergeFields(Metadata(id, i + 1, now, fuente, url), item.entries);
    }
  }

  /** One record per item: item i's record, numbered i + 1, at list position base + i. */
  function PayloadRecords(items: seq<Value>, fuente: string, url: string, base: nat,
                          ids: nat -> string, now: string): (rs: seq<Record>)
    ensures |rs| == |items|
  {
    seq(|items|, i requires 0 <= i < |items| => PayloadRecord(items[i], i, ids(base + i), now, fuente, url))
  }

  /** Every payload record carries an `id`, whether the metadata's or the item's own. */
  lemma PayloadRecordsKeyed(items: seq<Value>, fuente: string, url: string, base: nat,
                            ids: nat -> string, now: string)
    ensures Keyed(PayloadRecords(items, fuente, url, base, ids, now))
  {
    var rs := PayloadRecords(items, fuente, url, base, ids, now);
    forall r | r in rs ensures "id" in r {
      var i :| 0 <= i < |rs| && rs[i] == r;
      PayloadRecordKeyed(items[i], i, ids(base + i), now, fuente, url);
    }
  }

  lemma PayloadRecordKeyed(item: Value, i: nat, id: string, now: string, fuente: string, url: string)
    ensures "id" in PayloadRecord(item, i, id, now, fuente, url)
  {
    if item.VObj? {
      MergeFields(Metadata(id, i + 1, now, fuente, url), item.entries);
    }
  }

  /** The loop of 54-66 and 115-127: at most ten items, each appended in turn. */
  method BuildPayload(acc: seq<Record>, items: seq<Value>, fuente: string, url: string,
                      ids: nat -> string, now: string) returns (out: seq<Record>)
    ensures out == acc + PayloadRecords(Prefix(items, MAX_RECORDS), fuente, url, |acc|, ids, now)
  {
    var batch := Prefix(items, MAX_RECORDS);
    out := acc;
    for i := 0 to |batch|
      invariant out == acc + PayloadRecords(batch[..i], fuente, url, |acc|, ids, now)
    {
      var rec := BuildItem(batch[i], i, ids(|out|), now, fuente, url);
      assert PayloadRecords(batch[..i + 1], fuente, url, |acc|, ids, now)
        == PayloadRecords(batch[..i], fuente, url, |acc|, ids, now) + [rec];
      out := out + [rec];
    }
    assert batch[..|batch|] == batch;
  }

  /** One iteration of that loop: the metadata, then `sismo.update(item)` or `sismo['datos'] = str(item)`. */
  method BuildItem(item: Value, i: nat, id: string, now: string, fuente: string, url: string) returns (rec: Record)
    ensures rec == PayloadRecord(item, i, id, now, fuente, url)
  {
    rec := Metadata(id, i + 1, now, fuente, url);
    if item.VObj? {
      rec := Merge(rec, item.entries);
    } else {
      rec := rec["datos" := VStr(PyStr(item))];
    }
  }

  // ---------------------------------------------------------------------
  // Unguarded dict.update over a list (68-77, 253-262)

  /**
   * Items updated into fresh metadata one by one; the first update that
   * raises stops the list, keeping the records appended before it.
   */
  function UpdateRecords(items: seq<Value>, fuente: string, url: string, base: nat,
                         ids: nat -> string, now: string): (g: Gathered)
    ensures |g.records| <= |items|
    ensures g.raised.None? ==> |g.records| == |items|
    ensures g.raised.Some? ==> |g.records| < |items|
  {
    if items == [] then Gathered([], None)
    else
      var n := |items| - 1;
      var g := UpdateRecords(items[..n], fuente, url, base, ids, now);
      if g.raised.Some? then g
      else
        match Update(Metadata(ids(base + n), n + 1, now, fuente, url), items[n])
        case Ok(r) => Gathered(g.records + [r], None)
        case Err(e) => Gathered(g.records, Some(e))
  }

  /**
   * Record i is item i updated into its metadata; when the list stopped early,
   * the item at the stopping position is the one whose update raised.
   */
  lemma {:induction false} UpdateRecordsAt(items: seq<Value>, fuente: string, url: string, base: nat,
                                           ids: nat -> string, now: string)
    ensures var g := UpdateRecords(items, fuente, url, base, ids, now);
      forall i :: 0 <= i < |g.records| ==>
        Update(Metadata(ids(base + i), i + 1, now, fuente, url), items[i]) == Ok(g.records[i])
    ensures var g := UpdateRecords(items, fuente, url, base, ids, now);
      g.raised.Some? ==>
        Update(Metadata(ids(base + |g.records|), |g.records| + 1, now, fuente, url), items[|g.records|])
          == Err(g.raised.value)
  {
    if items != [] {
      var n := |items| - 1;
      UpdateRecordsAt(items[..n], fuente, url, base, ids, now);
      var prev := UpdateRecords(items[..n], fuente, url, base, ids, now);
      var g := UpdateRecords(items, fuente, url, base, ids, now);
      forall i | 0 <= i < |prev.records| ensures items[..n][i] == items[i] {
      }
      if prev.raised.None? {
        var u := Update(Metadata(ids(base + n), n + 1, now, fuente, url), items[n]);
        assert |prev.records| == n;
        if u.Ok? {
          assert g.records == prev.records + [u.value];
        } else {
          assert g == Gathered(prev.records, Some(u.error));
        }
      } else {
        assert g == prev;
      }
    }
  }

  /** Every updated record keeps the metadata's `id` key, whatever the item overrode. */
  lemma UpdateRecordsKeyed(items: seq<Value>, fuente: string, url: string, base: nat,
                           ids: nat -> string, now: string)
    ensures Keyed(UpdateRecords(items, fuente, url, base, ids, now).records)
  {
    var g := UpdateRecords(items, fuente, url, base, ids, now);
    UpdateRecordsAt(items, fuente, url, base, ids, now);
    forall r | r in g.records ensures "id" in r {
      var i :| 0 <= i < |g.records| && g.records[i] == r;
      UpdateKeepsKeys(Metadata(ids(base + i), i + 1, now, fuente, url), items[i]);
    }
  }

  /** Once an update has raised, later items change nothing. */
  lemma {:induction false} UpdateRecordsStopped(items: seq<Value>, i: nat, fuente: string, url: string,
                                                base: nat, ids: nat -> string, now: string)
    requires i <= |items|
    requires UpdateRecords(items[..i], fuente, url, base, ids, now).raised.Some?
    ensures UpdateRecords(items, fuente, url, base, ids, now) == UpdateRecords(items[..i], fuente, url, base, ids, now)
    decreases |items| - i
  {
    if i < |items| {
      var n := |items| - 1;
      var prefix := items[..n];
      assert prefix[..i] == items[..i];
      UpdateRecordsStopped(prefix, i, fuente, url, base, ids, now);
      var g := UpdateRecords(prefix, fuente, url, base, ids, now);
      assert g.raised.Some?;
      assert UpdateRecords(items, fuente, url, base, ids, now) == g;
    } else {
      assert items[..i] == items;
    }
  }

  /** The loop of 68-77 or 253-262: append updated records until an update raises. */
  method GatherUpdates(acc: seq<Record>, items: seq<Value>, fuente: string, url: string,
                       ids: nat -> string, now: string) returns (out: seq<Record>, raised: Option<Failure>)
    ensures var g := UpdateRecords(items, fuente, url, |acc|, ids, now);
      out == acc + g.records && raised == g.raised
  {
    out, raised := acc, None;
    var i := 0;
    while i < |items| && raised.None?
      invariant 0 <= i <= |items|
      invariant out == acc + UpdateRecords(items[..i], fuente, url, |acc|, ids, now).records
      invariant raised == UpdateRecords(items[..i], fuente, url, |acc|, ids, now).raised
    {
      assert items[..i + 1][..i] == items[..i];
      var rec := Metadata(ids(|out|), i + 1, now, fuente, url);
      match Update(rec, items[i]) {
        case Ok(r) => out := out + [r];
        case Err(e) => raised := Some(e);
      }
      i := i + 1;
    }
    if raised.Some? {
      UpdateRecordsStopped(items, i, fuente, url, |acc|, ids, now);
    } else {
      assert items[..i] == items;
    }
  }

  // ---------------------------------------------------------------------
  // The API probe (45-85)

  /** What one endpoint contributes: records and possibly an exception that escapes the probe. */
  function EndpointRecords(url: string, f: Fetch, ids: nat -> string, now: string): (g: Gathered)
    ensures |g.records| <= MAX_RECORDS
    ensures f.Response? && f.status == 200 && f.body.Json? && f.body.v.VList? && f.body.v.items != [] ==>
      g.raised.None? &&
      |g.records| == Min(|f.body.v.items|, MAX_RECORDS) &&
      forall i :: 0 <= i < |g.records| ==>
        g.records[i] == PayloadRecord(f.body.v.items[i], i, ids(i), now, API_TAG, url)
  {
    match f
    case Unreachable(_) => Gathered([], None)
    case Response(status, body) =>
      if status != 200 || body.NotJson? || !Truthy(body.v) then Gathered([], None)
      else
        match body.v
        case VList(xs) => Gathered(PayloadRecords(Prefix(xs, MAX_RECORDS), API_TAG, url, 0, ids, now), None)
        case VObj(es) =>
          var inner := Find(es, "sismos");
          if inner.None? then Gathered([], None)
          else
            (match Sliced(inner.value, MAX_RECORDS)
             case Err(e) => Gathered([], Some(e))
             case Ok(batch) => UpdateRecords(batch, API_TAG, url, 0, ids, now))
        case _ => Gathered([], None)
  }

  lemma EndpointRecordsKeyed(url: string, f: Fetch, ids: nat -> string, now: string)
    ensures Keyed(EndpointRecords(url, f, ids, now).records)
  {
    if f.Response? && f.status == 200 && f.body.Json? && Truthy(f.body.v) {
      match f.body.v
      case VList(xs) => PayloadRecordsKeyed(Prefix(xs, MAX_RECORDS), API_TAG, url, 0, ids, now);
      case VObj(es) =>
        var inner := Find(es, "sismos");
        if inner.Some? && Sliced(inner.value, MAX_RECORDS).Ok? {
          UpdateRecordsKeyed(Sliced(inner.value, MAX_RECORDS).value, API_TAG, url, 0, ids, now);
        }
      case _ =>
    }
  }

  /** An endpoint ends the probe when it gave records or raised. */
  predicate Stops(g: Gathered)
  {
    g.records != [] || g.raised.Some?
  }

  /** Endpoints are tried in order; the first that stops decides the outcome. */
  function ApiProbe(urls: seq<string>, net: string -> Fetch, ids: nat -> string, now: string): (g: Gathered)
    ensures |g.records| <= MAX_RECORDS
  {
    if urls == [] then Gathered([], None)
    else
      var g := EndpointRecords(urls[0], net(urls[0]), ids, now);
      if Stops(g) then g else ApiProbe(urls[1..], net, ids, now)
  }

  /** The probe stops exactly when some endpoint stops; when none does it gives nothing at all. */
  lemma {:induction false} ApiProbeStops(urls: seq<string>, net: string -> Fetch, ids: nat -> string, now: string)
    ensures var g := ApiProbe(urls, net, ids, now);
      Stops(g) <==> exists k :: 0 <= k < |urls| && Stops(EndpointRecords(urls[k], net(urls[k]), ids, now))
    ensures var g := ApiProbe(urls, net, ids, now);
      !Stops(g) ==> g == Gathered([], None)
  {
    if urls != [] {
      ApiProbeStops(urls[1..], net, ids, now);
      var g0 := EndpointRecords(urls[0], net(urls[0]), ids, now);
      if !Stops(g0) {
        var g := ApiProbe(urls, net, ids, now);
        if Stops(g) {
          var k :| 0 <= k < |urls[1..]| && Stops(EndpointRecords(urls[1..][k], net(urls[1..][k]), ids, now));
          assert urls[1..][k] == urls[k + 1];
        }
        forall k | 0 <= k < |urls| && Stops(EndpointRecords(urls[k], net(urls[k]), ids, now))
          ensures Stops(g)
        {
          assert urls[1..][k - 1] == urls[k];
        }
      }
    }
  }

  /** The probe's outcome is the first stopping endpoint's. */
  lemma {:induction false} ApiProbeFirstStop(urls: seq<string>, net: string -> Fetch, ids: nat -> string, now: string, k: nat)
    requires k < |urls| && Stops(EndpointRecords(urls[k], net(urls[k]), ids, now))
    requires forall j :: 0 <= j < k ==> !Stops(EndpointRecords(urls[j], net(urls[j]), ids, now))
    ensures ApiProbe(urls, net, ids, now) == EndpointRecords(urls[k], net(urls[k]), ids, now)
  {
    if k > 0 {
      assert !Stops(EndpointRecords(urls[0], net(urls[0]), ids, now));
      forall j | 0 <= j < k - 1
        ensures !Stops(EndpointRecords(urls[1..][j], net(urls[1..][j]), ids, now))
      {
        assert urls[1..][j] == urls[j + 1];
      }
      assert urls[1..][k - 1] == urls[k];
      ApiProbeFirstStop(urls[1..], net, ids, now, k - 1);
    }
  }

  lemma {:induction false} ApiProbeKeyed(urls: seq<string>, net: string -> Fetch, ids: nat -> string, now: string)
    ensures Keyed(ApiProbe(urls, net, ids, now).records)
  {
    if urls != [] {
      EndpointRecordsKeyed(urls[0], net(urls[0]), ids, now);
      ApiProbeKeyed(urls[1..], net, ids, now);
    }
  }

  /** Lines 45-85, looping over the fixed endpoints with the source's breaks. */
  method ProbeApi(net: string -> Fetch, ids: nat -> string, now: string) returns (data: seq<Record>, raised: Option<Failure>)
    ensures Gathered(data, raised) == ApiProbe(API_ENDPOINTS, net, ids, now)
  {
    data, raised := [], None;
    var n := 0;
    while n < |API_ENDPOINTS| && data == [] && raised.None?
      invariant 0 <= n <= |API_ENDPOINTS|
      invariant data == [] && raised.None? ==>
        ApiProbe(API_ENDPOINTS, net, ids, now) == ApiProbe(API_ENDPOINTS[n..], net, ids, now)
      invariant !(data == [] && raised.None?) ==> ApiProbe(API_ENDPOINTS, net, ids, now) == Gathered(data, raised)
    {
      var url := API_ENDPOINTS[n];
      var response := net(url);
      if response.Response? && response.status == 200 && response.body.Json? {
        var v := response.body.v;
        if Truthy(v) && (v.VList? || v.VObj?) {
          if v.VList? {
            data := BuildPayload(data, v.items, API_TAG, url, ids, now);
          } else if Find(v.entries, "sismos").Some? {
            match Sliced(Find(v.entries, "sismos").value, MAX_RECORDS) {
              case Err(e) => raised := Some(e);
              case Ok(batch) => data, raised := GatherUpdates(data, batch, API_TAG, url, ids, now);
            }
          }
        }
      }
      assert Gathered(data, raised) == EndpointRecords(url, response, ids, now);
      assert API_ENDPOINTS[n..][1..] == API_ENDPOINTS[n + 1..];
      n := n + 1;
    }
  }

  // ---------------------------------------------------------------------
  // The embedded-script probe (96-133)

  /** A pattern yields records only when its group decodes to a non-empty JSON array. */
  function MatchRecords(m: Match, ids: nat -> string, now: string): (rs: seq<Record>)
    ensures |rs| <= MAX_RECORDS
    ensures rs != [] <==> m.Matched? && m.decoded.Json? && m.decoded.v.VList? && m.decoded.v.items != []
    ensures rs != [] ==>
      |rs| == Min(|m.decoded.v.items|, MAX_RECORDS) &&
      forall i :: 0 <= i < |rs| ==> rs[i] == PayloadRecord(m.decoded.v.items[i], i, ids(i), now, JS_TAG, PAGE_URL)
  {
    if m.Matched? && m.decoded.Json? && m.decoded.v.VList? && m.decoded.v.items != [] then
      PayloadRecords(Prefix(m.decoded.v.items, MAX_RECORDS), JS_TAG, PAGE_URL, 0, ids, now)
    else []
  }

  /** The patterns of one script, in order: the first that yields records wins. */
  function ScriptRecords(ms: seq<Match>, ids: nat -> string, now: string): (rs: seq<Record>)
    ensures |rs| <= MAX_RECORDS
  {
    if ms == [] then []
    else
      var rs := MatchRecords(ms[0], ids, now);
      if rs != [] then rs else ScriptRecords(ms[1..], ids, now)
  }

  /** The scripts in document order: the first that yields records wins. */
  function ScriptsRecords(scripts: seq<Script>, ids: nat -> string, now: string): (rs: seq<Record>)
    ensures |rs| <= MAX_RECORDS
  {
    if scripts == [] then []
    else
      var rs := if scripts[0].ScriptText? then ScriptRecords(scripts[0].matches, ids, now) else [];
      if rs != [] then rs else ScriptsRecords(scripts[1..], ids, now)
  }

  /** No pattern of the scripts before position s yields records. */
  predicate ScriptsSilentBefore(scripts: seq<Script>, s: nat, ids: nat -> string, now: string)
    requires s <= |scripts|
  {
    forall t, q :: 0 <= t < s && scripts[t].ScriptText? && 0 <= q < |scripts[t].matches| ==>
      MatchRecords(scripts[t].matches[q], ids, now) == []
  }

  /** No pattern before position p yields records. */
  predicate PatternsSilentBefore(ms: seq<Match>, p: nat, ids: nat -> string, now: string)
    requires p <= |ms|
  {
    forall q :: 0 <= q < p ==> MatchRecords(ms[q], ids, now) == []
  }

  /** The script probe yields records exactly when some pattern of some script decodes to a non-empty array. */
  lemma {:induction false} ScriptsRecordsFirstHit(scripts: seq<Script>, ids: nat -> string, now: string)
    ensures ScriptsRecords(scripts, ids, now) != [] <==>
      exists s, p :: (0 <= s < |scripts| && scripts[s].ScriptText? &&
                      0 <= p < |scripts[s].matches| && MatchRecords(scripts[s].matches[p], ids, now) != [])
  {
    if scripts != [] {
      ScriptsRecordsFirstHit(scripts[1..], ids, now);
      if scripts[0].ScriptText? {
        ScriptRecordsFirstHit(scripts[0].matches, ids, now);
      }
      if ScriptsRecords(scripts, ids, now) == [] {
        forall s, p | 0 <= s < |scripts| && scripts[s].ScriptText? && 0 <= p < |scripts[s].matches|
          ensures MatchRecords(scripts[s].matches[p], ids, now) == []
        {
          if s > 0 {
            assert scripts[1..][s - 1] == scripts[s];
          }
        }
      } else if !(scripts[0].ScriptText? && ScriptRecords(scripts[0].matches, ids, now) != []) {
        var s, p :| 0 <= s < |scripts[1..]| && scripts[1..][s].ScriptText? &&
          0 <= p < |scripts[1..][s].matches| && MatchRecords(scripts[1..][s].matches[p], ids, now) != [];
        assert scripts[1..][s] == scripts[s + 1];
      }
    }
  }

  /**
   * When the script probe yields records they are those of the first pattern
   * that yields any: every pattern of every earlier script, and every
   * earlier pattern of its own script, yields none.
   */
  lemma {:induction false} ScriptsRecordsFirstPattern(scripts: seq<Script>, ids: nat -> string, now: string)
    requires ScriptsRecords(scripts, ids, now) != []
    ensures exists s, p :: (0 <= s < |scripts| && scripts[s].ScriptText? && 0 <= p < |scripts[s].matches| &&
                            ScriptsRecords(scripts, ids, now) == MatchRecords(scripts[s].matches[p], ids, now) &&
                            ScriptsSilentBefore(scripts, s, ids, now) &&
                            PatternsSilentBefore(scripts[s].matches, p, ids, now))
  {
    var rs := ScriptsRecords(scripts, ids, now);
    if scripts[0].ScriptText? && ScriptRecords(scripts[0].matches, ids, now) != [] {
      ScriptRecordsFirstPattern(scripts[0].matches, ids, now);
      var p :| 0 <= p < |scripts[0].matches| && rs == MatchRecords(scripts[0].matches[p], ids, now) &&
        PatternsSilentBefore(scripts[0].matches, p, ids, now);
      assert ScriptsSilentBefore(scripts, 0, ids, now);
    } else {
      if scripts[0].ScriptText? {
        ScriptRecordsFirstHit(scripts[0].matches, ids, now);
      }
      ScriptsRecordsFirstPattern(scripts[1..], ids, now);
      var s, p :| 0 <= s < |scripts[1..]| && scripts[1..][s].ScriptText? &&
        0 <= p < |scripts[1..][s].matches| && rs == MatchRecords(scripts[1..][s].matches[p], ids, now) &&
        ScriptsSilentBefore(scripts[1..], s, ids, now) &&
        PatternsSilentBefore(scripts[1..][s].matches, p, ids, now);
      assert scripts[1..][s] == scripts[s + 1];
      forall t, q | 0 <= t < s + 1 && scripts[t].ScriptText? && 0 <= q < |scripts[t].matches|
        ensures MatchRecords(scripts[t].matches[q], ids, now) == []
      {
        if t > 0 {
          assert scripts[1..][t - 1] == scripts[t];
        }
      }
      assert ScriptsSilentBefore(scripts, s + 1, ids, now);
    }
  }

  lemma {:induction false} ScriptRecordsFirstHit(ms: seq<Match>, ids: nat -> string, now: string)
    ensures ScriptRecords(ms, ids, now) != [] <==> exists p :: 0 <= p < |ms| && MatchRecords(ms[p], ids, now) != []
  {
    if ms != [] {
      ScriptRecordsFirstHit(ms[1..], ids, now);
      if ScriptRecords(ms, ids, now) == [] {
        forall p | 0 <= p < |ms| ensures MatchRecords(ms[p], ids, now) == [] {
          if p > 0 {
            assert ms[1..][p - 1] == ms[p];
          }
        }
      } else if MatchRecords(ms[0], ids, now) == [] {
        var p :| 0 <= p < |ms[1..]| && MatchRecords(ms[1..][p], ids, now) != [];
        assert ms[1..][p] == ms[p + 1];
      }
    }
  }

  /** When a script's patterns yield records they are those of its first pattern that yields any. */
  lemma {:induction false} ScriptRecordsFirstPattern(ms: seq<Match>, ids: nat -> string, now: string)
    requires ScriptRecords(ms, ids, now) != []
    ensures exists p :: 0 <= p < |ms| && ScriptRecords(ms, ids, now) == MatchRecords(ms[p], ids, now) &&
                        PatternsSilentBefore(ms, p, ids, now)
  {
    if MatchRecords(ms[0], ids, now) != [] {
      assert PatternsSilentBefore(ms, 0, ids, now);
    } else {
      ScriptRecordsFirstPattern(ms[1..], ids, now);
      var p :| 0 <= p < |ms[1..]| && ScriptRecords(ms[1..], ids, now) == MatchRecords(ms[1..][p], ids, now) &&
        PatternsSilentBefore(ms[1..], p, ids, now);
      assert ms[1..][p] == ms[p + 1];
      forall q | 0 <= q < p + 1 ensures MatchRecords(ms[q], ids, now) == [] {
        if q > 0 {
          assert ms[1..][q - 1] == ms[q];
        }
      }
      assert PatternsSilentBefore(ms, p + 1, ids, now);
    }
  }

  lemma ScriptsRecordsKeyed(scripts: seq<Script>, ids: nat -> string, now: string)
    ensures Keyed(ScriptsRecords(scripts, ids, now))
  {
    var rs := ScriptsRecords(scripts, ids, now);
    if rs != [] {
      ScriptsRecordsFirstPattern(scripts, ids, now);
      var s, p :| 0 <= s < |scripts| && scripts[s].ScriptText? &&
        0 <= p < |scripts[s].matches| && rs == MatchRecords(scripts[s].matches[p], ids, now) &&
        ScriptsSilentBefore(scripts, s, ids, now) && PatternsSilentBefore(scripts[s].matches, p, ids, now);
      var m := scripts[s].matches[p];
      PayloadRecordsKeyed(Prefix(m.decoded.v.items, MAX_RECORDS), JS_TAG, PAGE_URL, 0, ids, now);
    }
  }

  /** Lines 109-130: the patterns of one script, breaking at the first that yields records. */
  method ProbePatterns(ms: seq<Match>, ids: nat -> string, now: string) returns (data: seq<Record>)
    ensures data == ScriptRecords(ms, ids, now)
  {
    data := [];
    var p := 0;
    while p < |ms| && data == []
      invariant 0 <= p <= |ms|
      invariant ScriptRecords(ms, ids, now) == if data == [] then ScriptRecords(ms[p..], ids, now) else data
    {
      var m := ms[p];
      if m.Matched? && m.decoded.Json? && m.decoded.v.VList? && m.decoded.v.items != [] {
        data := BuildPayload(data, m.decoded.v.items, JS_TAG, PAGE_URL, ids, now);
      }
      assert data == MatchRecords(m, ids, now);
      assert ms[p..][0] == m && ms[p..][1..] == ms[p + 1..];
      p := p + 1;
    }
  }

  /** Lines 96-133: scripts in order, breaking at the first whose patterns yielded records. */
  method ProbeScripts(scripts: seq<Script>, ids: nat -> string, now: string) returns (data: seq<Record>)
    ensures data == ScriptsRecords(scripts, ids, now)
  {
    data := [];
    var s := 0;
    while s < |scripts| && data == []
      invariant 0 <= s <= |scripts|
      invariant ScriptsRecords(scripts, ids, now) == if data == [] then ScriptsRecords(scripts[s..], ids, now) else data
    {
      if scripts[s].ScriptText? {
        data := ProbePatterns(scripts[s].matches, ids, now);
      }
      assert scripts[s..][0] == scripts[s] && scripts[s..][1..] == scripts[s + 1..];
      s := s + 1;
    }
  }

  // ---------------------------------------------------------------------
  // The fallback API probe (237-267)

  /** An answer the fallback probe reads: status 200 and a non-empty JSON array. */
  predicate ListAnswer(f: Fetch)
  {
    f.Response? && f.status == 200 && f.body.Json? && f.body.v.VList? && f.body.v.items != []
  }

  /** What one fallback endpoint contributes: its first ten items updated into records, when it answered a list. */
  function FallbackEndpoint(url: string, f: Fetch, base: nat, ids: nat -> string, now: string): (g: Gathered)
    ensures |g.records| <= MAX_RECORDS
    ensures !ListAnswer(f) ==> g == Gathered([], None)
  {
    if ListAnswer(f) then UpdateRecords(Prefix(f.body.v.items, MAX_RECORDS), API_TAG, url, base, ids, now)
    else Gathered([], None)
  }

  /** The fallback probe ends at an endpoint that answered a list whose update did not raise. */
  predicate Settles(f: Fetch, g: Gathered)
  {
    ListAnswer(f) && g.raised.None?
  }

  /** Each endpoint's contribution, given the list position its first record goes to. */
  function FallbackEndpoints(net: string -> Fetch, ids: nat -> string, now: string): (string, nat) -> Gathered
  {
    (url: string, base: nat) => FallbackEndpoint(url, net(url), base, ids, now)
  }

  /**
   * The fallback loop over endpoint contributions `ep`: each endpoint's
   * records are appended; the loop ends after an endpoint that settles.
   */
  function FallbackWith(urls: seq<string>, net: string -> Fetch, ep: (string, nat) -> Gathered, base: nat): seq<Record>
  {
    if urls == [] then []
    else
      var g := ep(urls[0], base);
      if Settles(net(urls[0]), g) then g.records
      else g.records + FallbackWith(urls[1..], net, ep, base + |g.records|)
  }

  /**
   * Each endpoint answering 200 with a non-empty JSON array has its first ten
   * items updated into records.  If an update raises, the bare `except` moves
   * on to the next endpoint and the records already appended stay.
   */
  function FallbackRecords(urls: seq<string>, net: string -> Fetch, base: nat, ids: nat -> string, now: string): seq<Record>
  {
    FallbackWith(urls, net, FallbackEndpoints(net, ids, now), base)
  }

  /** The fallback probe gives at most ten records per endpoint. */
  lemma FallbackRecordsBound(urls: seq<string>, net: string -> Fetch, base: nat, ids: nat -> string, now: string)
    ensures |FallbackRecords(urls, net, base, ids, now)| <= MAX_RECORDS * |urls|
  {
    FallbackEndpointsBound(net, ids, now);
    FallbackWithBound(urls, net, FallbackEndpoints(net, ids, now), base);
  }

  lemma FallbackEndpointsBound(net: string -> Fetch, ids: nat -> string, now: string)
    ensures forall u: string, b: nat :: |FallbackEndpoints(net, ids, now)(u, b).records| <= MAX_RECORDS
  {
    forall u: string, b: nat ensures |FallbackEndpoints(net, ids, now)(u, b).records| <= MAX_RECORDS {
      assert FallbackEndpoints(net, ids, now)(u, b) == FallbackEndpoint(u, net(u), b, ids, now);
    }
  }

  /** Each endpoint contributes at most ten records, so the loop gives at most ten per endpoint. */
  lemma {:induction false} FallbackWithBound(urls: seq<string>, net: string -> Fetch, ep: (string, nat) -> Gathered, base: nat)
    requires forall u: string, b: nat :: |ep(u, b).records| <= MAX_RECORDS
    ensures |FallbackWith(urls, net, ep, base)| <= MAX_RECORDS * |urls|
  {
    if urls != [] {
      FallbackWithBound(urls[1..], net, ep, base + |ep(urls[0], base).records|);
    }
  }

  /** When no endpoint answers a list, the fallback probe gives nothing. */
  lemma {:induction false} FallbackNoList(urls: seq<string>, net: string -> Fetch, base: nat, ids: nat -> string, now: string)
    requires forall j :: 0 <= j < |urls| ==> !ListAnswer(net(urls[j]))
    ensures FallbackRecords(urls, net, base, ids, now) == []
  {
    if urls != [] {
      assert FallbackEndpoints(net, ids, now)(urls[0], base) == Gathered([], None);
      forall j | 0 <= j < |urls[1..]| ensures !ListAnswer(net(urls[1..][j])) {
        assert urls[1..][j] == urls[j + 1];
      }
      FallbackNoList(urls[1..], net, base, ids, now);
    }
  }

  /**
   * When the first endpoint that answers a list updates without raising, the
   * fallback probe gives exactly that endpoint's records (at most ten).
   */
  lemma {:induction false} FallbackFirstList(urls: seq<string>, net: string -> Fetch, base: nat,
                                             ids: nat -> string, now: string, k: nat)
    requires k < |urls| && ListAnswer(net(urls[k]))
    requires forall j :: 0 <= j < k ==> !ListAnswer(net(urls[j]))
    requires FallbackEndpoint(urls[k], net(urls[k]), base, ids, now).raised.None?
    ensures FallbackRecords(urls, net, base, ids, now) == FallbackEndpoint(urls[k], net(urls[k]), base, ids, now).records
  {
    var g := FallbackEndpoint(urls[0], net(urls[0]), base, ids, now);
    assert FallbackEndpoints(net, ids, now)(urls[0], base) == g;
    if k > 0 {
      assert g == Gathered([], None);
      forall j | 0 <= j < k - 1 ensures !ListAnswer(net(urls[1..][j])) {
        assert urls[1..][j] == urls[j + 1];
      }
      assert urls[1..][k - 1] == urls[k];
      FallbackFirstList(urls[1..], net, base, ids, now, k - 1);
    }
  }

  lemma {:induction false} FallbackRecordsKeyed(urls: seq<string>, net: string -> Fetch, base: nat,
                                                ids: nat -> string, now: string)
    ensures Keyed(FallbackRecords(urls, net, base, ids, now))
  {
    if urls != [] {
      var f := net(urls[0]);
      var g := FallbackEndpoint(urls[0], f, base, ids, now);
      if ListAnswer(f) {
        UpdateRecordsKeyed(Prefix(f.body.v.items, MAX_RECORDS), API_TAG, urls[0], base, ids, now);
      }
      FallbackRecordsKeyed(urls[1..], net, base + |g.records|, ids, now);
      assert FallbackEndpoints(net, ids, now)(urls[0], base) == g;
    }
  }

  /** Lines 249-263 for one endpoint: update its first ten items when it answered a list. */
  method FallbackStep(acc: seq<Record>, url: string, response: Fetch, ids: nat -> string, now: string)
    returns (out: seq<Record>, settled: bool)
    ensures var g := FallbackEndpoint(url, response, |acc|, ids, now);
      out == acc + g.records && settled == Settles(response, g)
  {
    out, settled := acc, false;
    if ListAnswer(response) {
      var raised;
      out, raised := GatherUpdates(acc, Prefix(response.body.v.items, MAX_RECORDS), API_TAG, url, ids, now);
      settled := raised.None?;
    }
  }

  /** Lines 247-265 over the given endpoints, with the break after a list that updated without raising. */
  method ProbeFallback(acc: seq<Record>, urls: seq<string>, net: string -> Fetch, ids: nat -> string, now: string)
    returns (out: seq<Record>)
    ensures out == acc + FallbackRecords(urls, net, |acc|, ids, now)
  {
    out := acc;
    var n := 0;
    while n < |urls|
      invariant 0 <= n <= |urls|
      invariant acc + FallbackRecords(urls, net, |acc|, ids, now) == out + FallbackRecords(urls[n..], net, |out|, ids, now)
    {
      var url := urls[n];
      assert urls[n..][0] == url && urls[n..][1..] == urls[n + 1..];
      var settled;
      ghost var before := |out|;
      out, settled := FallbackStep(out, url, net(url), ids, now);
      assert FallbackEndpoints(net, ids, now)(url, before) == FallbackEndpoint(url, net(url), before, ids, now);
      if settled {
        break;
      }
      n := n + 1;
    }
  }
}

=== FILE: records.dfy ===
/**
 * The fixed parts of every record the handler builds: the source tags, the
 * URLs it probes, the caps, the metadata block each strategy starts from, and
 * the error record its two outer `except` clauses append.
 */
module Records {
  import opened Values

  const PAGE_URL := "https://ultimosismo.igp.gob.pe/ultimo-sismo/sismos-reportados"

  /** The endpoints probed before the page is fetched, in order. */
  const API_ENDPOINTS: seq<string> := [
    "https://ultimosismo.igp.gob.pe/ultimo-sismo/ajax/sismos/reportados",
    "https://ultimosismo.igp.gob.pe/ultimo-sismo/api/sismos",
    "https://ultimosismo.igp.gob.pe/api/sismos-reportados",
    "https://ultimosismo.igp.gob.pe/ultimo-sismo/sismos-reportados/data",
    "https://ultimosismo.igp.gob.pe/ultimo-sismo/sismos-reportados?format=json"
  ]

  /** The endpoints probed after every page strategy came back empty, in order. */
  const FALLBACK_ENDPOINTS: seq<string> := [
    "https://ultimosismo.igp.gob.pe/api/ultimo-sismo/sismos-reportados",
    "https://ultimosismo.igp.gob.pe/ultimo-sismo/api/sismos",
    "https://ultimosismo.igp.gob.pe/ultimo-sismo/data/sismos.json"
  ]

  const API_TAG := "IGP_API"
  const JS_TAG := "IGP_JS_DATA"
  const TABLE_TAG := "IGP"
  const CONTAINER_TAG := "IGP_CSS_CONTAINER"
  const TEXT_TAG := "IGP_TEXTO_PATRON"
  const STRUCTURE_TAG := "IGP_STRUCTURE_ANALYSIS"
  const DIAGNOSTIC_TAG := "IGP_DIAGNOSTICO"

  /** At most this many items of a payload, rows of a table or text hits are read. */
  const MAX_RECORDS: nat := 10
  const MAX_CONTAINERS: nat := 5
  const MAX_STRUCTURE: nat := 3

  const METADATA_KEYS: set<string> := {"id", "numero", "fecha_scraping", "fuente", "url_origen"}
  const ERROR_KEYS: set<string> := {"id", "error", "fecha_scraping", "tipo_error"}

  /** The dict every payload and table record starts from, before its own fields are written. */
  function Metadata(id: string, numero: int, now: string, fuente: string, url: string): Record
  {
    map["id" := VStr(id), "numero" := VInt(numero), "fecha_scraping" := VStr(now),
        "fuente" := VStr(fuente), "url_origen" := VStr(url)]
  }

  /** Every record carries the `id` field the table is keyed on. */
  predicate Keyed(rs: seq<Record>)
  {
    forall r :: r in rs ==> "id" in r
  }

  /**
   * The records a filtering loop appends: each element x at index i that is
   * kept gives `build(x, i, p)`, p being the list position it lands on
   * (base plus the records appended before it).
   */
  function Collect<T>(xs: seq<T>, keep: T -> bool, build: (T, nat, nat) -> Record, base: nat): (rs: seq<Record>)
    ensures |rs| <= |xs|
  {
    if xs == [] then []
    else
      var n := |xs| - 1;
      var prev := Collect(xs[..n], keep, build, base);
      if keep(xs[n]) then prev + [build(xs[n], n, base + |prev|)] else prev
  }

  /** Record k is built from the k-th kept element, with its index and list position base + k. */
  lemma {:induction false} CollectKept<T>(xs: seq<T>, keep: T -> bool, build: (T, nat, nat) -> Record, base: nat)
    ensures |Collect(xs, keep, build, base)| == |Positions(xs, keep)|
    ensures var rs := Collect(xs, keep, build, base); var ks := Positions(xs, keep);
      forall k :: 0 <= k < |rs| ==> ks[k] < |xs| && rs[k] == build(xs[ks[k]], ks[k], base + k)
  {
    if xs != [] {
      var n := |xs| - 1;
      CollectKept(xs[..n], keep, build, base);
      PositionsSpec(xs[..n], keep);
      var ks := Positions(xs[..n], keep);
      forall k | 0 <= k < |ks| ensures xs[..n][ks[k]] == xs[ks[k]] {
      }
    }
  }

  /** When every record build makes has an `id`, so does every collected list. */
  lemma CollectKeyed<T>(xs: seq<T>, keep: T -> bool, build: (T, nat, nat) -> Record, base: nat)
    requires forall x, i, p :: "id" in build(x, i, p)
    ensures Keyed(Collect(xs, keep, build, base))
  {
    CollectKept(xs, keep, build, base);
  }

  /** The `error` text: a connection error and any other exception get different prefixes. */
  function ErrorText(f: Failure): string
  {
    match f
    case RequestFailure(t) => "Error de conexión: " + t
    case GeneralFailure(e) => "Error general: " + ErrorMessage(e)
  }

  /** The `tipo_error` tag: transport errors are all tagged RequestException. */
  function ErrorKind(f: Failure): string
  {
    match f
    case RequestFailure(_) => "RequestException"
    case GeneralFailure(e) => ErrorTypeName(e)
  }

  /**
   * The record an outer `except` appends: four fields, no `numero` and no
   * `fuente`, so it is never confused with a data or diagnostic record.
   */
  function ErrorRecord(f: Failure, id: string, now: string): (r: Record)
    ensures r.Keys == ERROR_KEYS
    ensures "numero" !in r && "fuente" !in r
    ensures r["id"] == VStr(id) && r["fecha_scraping"] == VStr(now)
    ensures r["tipo_error"] == VStr(if f.RequestFailure? then "RequestException" else ErrorTypeName(f.error))
  {
    map["id" := VStr(id), "error" := VStr(ErrorText(f)), "fecha_scraping" := VStr(now),
        "tipo_error" := VStr(ErrorKind(f))]
  }
}

=== FILE: snapshot.dfy ===
/**
 * Persistence (scrap_table.py:315-336): the table is scanned and every
 * scanned item deleted by its `id`, then every record of this run is put.
 * A failing scan or delete stops the cleanup and a failing put skips that
 * record; both are only printed, so the run goes on.
 *
 * The table is a map from the `id` value to the stored item, keyed on a
 * string attribute `id`.  Which operations fail is given from outside: how
 * many deletes took effect before the cleanup raised, and the positions of
 * the puts that raised for their own reasons.
 */
module Snapshot {
  import opened Values
  import opened Records

  /** The key attribute `id` is present and is a non-empty string. */
  predicate ValidKey(r: Record)
  {
    "id" in r && r["id"].VStr? && r["id"].s != ""
  }

  /**
   * DynamoDB accepts an item only when its key is valid and no attribute
   * name is empty; any other item makes `put_item` raise.
   */
  predicate Accepted(r: Record)
  {
    ValidKey(r) && "" !in r
  }

  /** A put of record i is written when it did not raise: it was not made to fail and DynamoDB accepts it. */
  predicate Written(rs: seq<Record>, i: nat, failed: set<nat>)
    requires i < |rs|
  {
    i !in failed && Accepted(rs[i])
  }

  /** The table after the records are put in order over m, skipping the failed puts. */
  function Stored(m: map<Value, Record>, rs: seq<Record>, failed: set<nat>): map<Value, Record>
  {
    if rs == [] then m
    else
      var n := |rs| - 1;
      var prev := Stored(m, rs[..n], failed);
      if Written(rs, n, failed) then prev[rs[n]["id"] := rs[n]] else prev
  }

  /** The table's keys are the old ones plus the id of every written record. */
  lemma {:induction false} StoredKeys(m: map<Value, Record>, rs: seq<Record>, failed: set<nat>)
    ensures forall k :: k in Stored(m, rs, failed) <==>
      k in m || exists i :: 0 <= i < |rs| && Written(rs, i, failed) && rs[i]["id"] == k
  {
    if rs != [] {
      var n := |rs| - 1;
      StoredKeys(m, rs[..n], failed);
      forall i | 0 <= i < n ensures Written(rs[..n], i, failed) == Written(rs, i, failed) && rs[..n][i] == rs[i] {
      }
    }
  }

  /** A written record that no later written record shares an id with is the one stored under its id. */
  lemma {:induction false} StoredLastWriter(m: map<Value, Record>, rs: seq<Record>, failed: set<nat>, i: nat)
    requires i < |rs| && Written(rs, i, failed)
    requires forall j :: i < j < |rs| && Written(rs, j, failed) ==> rs[j]["id"] != rs[i]["id"]
    ensures var s := Stored(m, rs, failed); rs[i]["id"] in s && s[rs[i]["id"]] == rs[i]
  {
    var n := |rs| - 1;
    if i < n {
      forall j | i < j < n && Written(rs[..n], j, failed) ensures rs[..n][j]["id"] != rs[..n][i]["id"] {
        assert rs[..n][j] == rs[j] && Written(rs, j, failed);
      }
      StoredLastWriter(m, rs[..n], failed, i);
    }
  }

  /** A key no written record carries keeps its old item. */
  lemma {:induction false} StoredUntouched(m: map<Value, Record>, rs: seq<Record>, failed: set<nat>, k: Value)
    requires k in m
    requires forall i :: 0 <= i < |rs| && Written(rs, i, failed) ==> rs[i]["id"] != k
    ensures k in Stored(m, rs, failed) && Stored(m, rs, failed)[k] == m[k]
  {
    if rs != [] {
      var n := |rs| - 1;
      forall i | 0 <= i < n && Written(rs[..n], i, failed) ensures rs[..n][i]["id"] != k {
        assert rs[..n][i] == rs[i] && Written(rs, i, failed);
      }
      StoredUntouched(m, rs[..n], failed, k);
    }
  }

  /** With every record accepted, no put failing and the ids pairwise distinct, the table holds one item per record. */
  lemma {:induction false} StoredCount(rs: seq<Record>)
    requires forall i :: 0 <= i < |rs| ==> Accepted(rs[i])
    requires forall i, j :: 0 <= i < j < |rs| ==> "id" in rs[i] && "id" in rs[j] && rs[i]["id"] != rs[j]["id"]
    ensures |Stored(map[], rs, {})| == |rs|
  {
    if rs != [] {
      var n := |rs| - 1;
      StoredCount(rs[..n]);
      StoredKeys(map[], rs[..n], {});
      forall i | 0 <= i < n ensures rs[..n][i] == rs[i] {
      }
      assert rs[n]["id"] !in Stored(map[], rs[..n], {});
    }
  }

  /** A DynamoDB table keyed on `id`. */
  class Store {
    var items: map<Value, Record>

    constructor (initial: map<Value, Record>)
      ensures items == initial
    {
      items := initial;
    }

    /** `tabla.scan()['Items']`, reduced to their keys: every key once, in some order. */
    method Scan() returns (keys: seq<Value>)
      ensures forall k :: k in keys <==> k in items
      ensures forall i, j :: 0 <= i < j < |keys| ==> keys[i] != keys[j]
    {
      keys := [];
      var rest := items.Keys;
      while rest != {}
        invariant rest <= items.Keys
        invariant forall k :: k in keys <==> k in items && k !in rest
        invariant forall i, j :: 0 <= i < j < |keys| ==> keys[i] != keys[j]
        decreases rest
      {
        var k :| k in rest;
        keys := keys + [k];
        rest := rest - {k};
      }
    }

    /** `batch.delete_item(Key={'id': key})` */
    method Delete(key: Value)
      modifies this
      ensures items == old(items) - {key}
    {
      items := items - {key};
    }

    /** `tabla.put_item(Item=r)`: refused unless DynamoDB accepts the item, otherwise replaces the item with that id. */
    method Put(r: Record) returns (ok: bool)
      modifies this
      ensures ok <==> Accepted(r)
      ensures ok ==> items == old(items)[r["id"] := r]
      ensures !ok ==> items == old(items)
    {
      if !Accepted(r) {
        return false;
      }
      items := items[r["id"] := r];
      ok := true;
    }

    /**
     * Lines 323-334.  `cleanup` is None when the scan and every delete
     * succeeded, Some(k) when the cleanup raised after k deletes; `failed`
     * holds the positions of the puts that raised.  Returns the deleted keys.
     */
    method Replace(records: seq<Record>, cleanup: Option<nat>, failed: set<nat>) returns (purged: seq<Value>)
      modifies this
      ensures forall k :: k in purged ==> k in old(items)
      ensures forall i, j :: 0 <= i < j < |purged| ==> purged[i] != purged[j]
      ensures cleanup.None? ==> forall k :: k in old(items) ==> k in purged
      ensures cleanup.Some? ==> |purged| == Min(cleanup.value, |old(items)|)
      ensures items == Stored(old(items) - (set k | k in purged), records, failed)
    {
      var keys := Scan();
      var n := |keys|;
      if cleanup.Some? {
        n := Min(cleanup.value, |keys|);
        DistinctCount(keys, old(items));
      }
      purged := keys[..n];
      for i := 0 to n
        invariant items == old(items) - (set k | k in keys[..i])
      {
        Delete(keys[i]);
      }
      ghost var cleaned := items;
      for i := 0 to |records|
        invariant items == Stored(cleaned, records[..i], failed)
      {
        assert records[..i + 1][..i] == records[..i];
        if i !in failed {
          var _ := Put(records[i]);
        }
      }
      assert records[..|records|] == records;
    }
  }

  /** A list of distinct keys that are exactly a map's keys is as long as the map. */
  lemma DistinctCount(keys: seq<Value>, m: map<Value, Record>)
    requires forall k :: k in keys <==> k in m
    requires forall i, j :: 0 <= i < j < |keys| ==> keys[i] != keys[j]
    ensures |keys| == |m|
  {
    var s := set k | k in keys;
    assert s == m.Keys;
    DistinctCard(keys);
  }

  lemma {:induction false} DistinctCard(keys: seq<Value>)
    requires forall i, j :: 0 <= i < j < |keys| ==> keys[i] != keys[j]
    ensures |set k | k in keys| == |keys|
  {
    if keys != [] {
      var n := |keys| - 1;
      DistinctCard(keys[..n]);
      assert (set k | k in keys) == (set k | k in keys[..n]) + {keys[n]};
      assert keys[n] !in (set k | k in keys[..n]);
    }
  }

  /**
   * After a cleanup in which nothing raised, the table holds exactly this
   * run's records that DynamoDB accepted: its keys are their ids, each stored
   * under its id unless a later accepted record reused that id, and nothing
   * from before survives.
   */
  lemma CleanReplace(old_items: map<Value, Record>, purged: seq<Value>, records: seq<Record>)
    requires forall k :: k in old_items ==> k in purged
    ensures var s := Stored(old_items - (set k | k in purged), records, {});
      forall k :: k in s <==> exists i :: 0 <= i < |records| && Accepted(records[i]) && records[i]["id"] == k
    ensures var s := Stored(old_items - (set k | k in purged), records, {});
      forall i :: 0 <= i < |records| && Accepted(records[i]) &&
                  (forall j :: i < j < |records| && Accepted(records[j]) ==> records[j]["id"] != records[i]["id"]) ==>
        records[i]["id"] in s && s[records[i]["id"]] == records[i]
  {
    var m := old_items - (set k | k in purged);
    assert m == map[];
    StoredKeys(m, records, {});
    forall i | 0 <= i < |records| && Accepted(records[i]) &&
               (forall j :: i < j < |records| && Accepted(records[j]) ==> records[j]["id"] != records[i]["id"])
      ensures records[i]["id"] in Stored(m, records, {}) && Stored(m, records, {})[records[i]["id"]] == records[i]
    {
      StoredLastWriter(m, records, {}, i);
    }
  }

  /**
   * When the cleanup raised, an old item survives unless it was deleted or
   * a record of this run overwrote it.
   */
  lemma StaleSurvives(old_items: map<Value, Record>, purged: seq<Value>, records: seq<Record>, failed: set<nat>, k: Value)
    requires k in old_items && k !in purged
    requires forall i :: 0 <= i < |records| && Written(records, i, failed) ==> records[i]["id"] != k
    ensures var s := Stored(old_items - (set k | k in purged), records, failed); k in s && s[k] == old_items[k]
  {
    StoredUntouched(old_items - (set k | k in purged), records, failed, k);
  }
}

=== FILE: table.dfy ===
/**
 * The table strategy (scrap_table.py:139-177): the first table's row 0 gives
 * the header names, the data rows are mapped cell by cell onto them.
 *
 * A table is given as its rows, each row as the stripped texts of its
 * `th`/`td` cells in document order; locating the table and extracting the
 * texts is HTML parsing the model does not do.
 */
module Table {
  import opened Values
  import opened Records

  type Row = seq<string>

  const DEFAULT_HEADERS: seq<string> := ["Fecha", "Hora", "Latitud", "Longitud", "Profundidad", "Magnitud", "Ubicación"]

  /** A data row with fewer cells than this is skipped. */
  const MIN_CELLS: nat := 3

  /** The header names: row 0's cell texts, unless row 0 is missing or has no cells. */
  function Headers(rows: seq<Row>): (h: seq<string>)
    ensures h != []
    ensures rows != [] && rows[0] != [] ==> h == rows[0]
    ensures rows == [] || rows[0] == [] ==> h == DEFAULT_HEADERS
  {
    if rows != [] && rows[0] != [] then rows[0] else DEFAULT_HEADERS
  }

  /** `rows[1:] if len(rows) > 1 else rows`: a one-row table is read as data. */
  function DataRows(rows: seq<Row>): seq<Row>
  {
    if |rows| > 1 then rows[1..] else rows
  }

  /** The rows actually examined: the first ten data rows. */
  function Examined(rows: seq<Row>): (ex: seq<Row>)
    ensures |ex| == Min(MAX_RECORDS, |DataRows(rows)|)
  {
    Prefix(DataRows(rows), MAX_RECORDS)
  }

  /** The key of cell j: its header, or `campo_<j>` past the end of the headers. */
  function KeyFor(headers: seq<string>, j: nat): string
  {
    if j < |headers| then headers[j] else "campo_" + NatToString(j)
  }

  /** Cells past the headers get pairwise distinct keys. */
  lemma KeyForBeyondDistinct(headers: seq<string>, j: nat, j': nat)
    requires |headers| <= j && |headers| <= j' && j != j'
    ensures KeyFor(headers, j) != KeyFor(headers, j')
  {
    var a, b := NatToString(j), NatToString(j');
    if "campo_" + a == "campo_" + b {
      assert a == ("campo_" + a)[6..] && b == ("campo_" + b)[6..];
      NatToStringInjective(j, j');
    }
  }

  /** A synthetic `campo_<j>` key is never a metadata key: only a header can overwrite metadata. */
  lemma KeyForMetadata(headers: seq<string>, j: nat)
    ensures KeyFor(headers, j) in METADATA_KEYS ==> j < |headers| && headers[j] in METADATA_KEYS
  {
    if j >= |headers| {
      var k := KeyFor(headers, j);
      assert k[0] == 'c' && |k| >= 7;
    }
  }

  /** `sismo[header_name] = cell_text` for the first n cells, in order. */
  function FillCells(rec: Record, headers: seq<string>, cells: Row, n: nat): Record
    requires n <= |cells|
  {
    if n == 0 then rec
    else FillCells(rec, headers, cells, n - 1)[KeyFor(headers, n - 1) := VStr(cells[n - 1])]
  }

  /** After the first n cells are written the keys are the record's own plus the cells'. */
  lemma {:induction false} FillCellsKeys(rec: Record, headers: seq<string>, cells: Row, n: nat)
    requires n <= |cells|
    ensures var r := FillCells(rec, headers, cells, n);
      forall k :: k in r <==> k in rec || exists j :: 0 <= j < n && KeyFor(headers, j) == k
  {
    if n > 0 {
      FillCellsKeys(rec, headers, cells, n - 1);
    }
  }

  /**
   * A cell whose key no later cell reuses holds its text: a header equal to a
   * metadata key overwrites it, and of two equal headers the later wins.
   */
  lemma {:induction false} FillCellsLastWins(rec: Record, headers: seq<string>, cells: Row, n: nat, j: nat)
    requires j < n <= |cells|
    requires forall j' :: j < j' < n ==> KeyFor(headers, j') != KeyFor(headers, j)
    ensures var r := FillCells(rec, headers, cells, n);
      KeyFor(headers, j) in r && r[KeyFor(headers, j)] == VStr(cells[j])
  {
    if j < n - 1 {
      FillCellsLastWins(rec, headers, cells, n - 1, j);
    }
  }

  /** A key no cell uses keeps the record's old value. */
  lemma {:induction false} FillCellsUntouched(rec: Record, headers: seq<string>, cells: Row, n: nat, k: string)
    requires n <= |cells|
    requires k in rec && forall j :: 0 <= j < n ==> KeyFor(headers, j) != k
    ensures var r := FillCells(rec, headers, cells, n); k in r && r[k] == rec[k]
  {
    if n > 0 {
      FillCellsUntouched(rec, headers, cells, n - 1, k);
    }
  }

  /** The record of data row i: metadata with numero i + 1, then the cells. */
  function TableRecord(headers: seq<string>, row: Row, i: nat, id: string, now: string): Record
  {
    FillCells(Metadata(id, i + 1, now, TABLE_TAG, PAGE_URL), headers, row, |row|)
  }

  /** A row with at least three cells is kept. */
  predicate Filled(row: Row)
  {
    |row| >= MIN_CELLS
  }

  /** Row i's record, given the list position p it is appended at. */
  function RowBuilder(headers: seq<string>, ids: nat -> string, now: string): (Row, nat, nat) -> Record
  {
    (row: Row, i: nat, p: nat) => TableRecord(headers, row, i, ids(p), now)
  }

  /** The records of the examined rows that have at least three cells, in row order. */
  function TableRecords(rows: seq<Row>, headers: seq<string>, base: nat, ids: nat -> string, now: string): (rs: seq<Record>)
    ensures |rs| <= |rows|
  {
    Collect(rows, Filled, RowBuilder(headers, ids, now), base)
  }

  /** The indices of the rows that are kept, in increasing order. */
  function KeptRows(rows: seq<Row>): (ks: seq<nat>)
    ensures |ks| <= |rows|
  {
    Positions(rows, Filled)
  }

  /** The whole strategy on the first table. */
  function TableStrategy(table: seq<Row>, base: nat, ids: nat -> string, now: string): (rs: seq<Record>)
    ensures |rs| <= MAX_RECORDS
  {
    TableRecords(Examined(table), Headers(table), base, ids, now)
  }

  /**
   * One record per row with at least three cells; when no header is `numero`,
   * record k's numero is its row's index + 1, and these strictly increase.
   */
  lemma TableRecordsNumbering(rows: seq<Row>, headers: seq<string>, base: nat, ids: nat -> string, now: string)
    ensures var rs := TableRecords(rows, headers, base, ids, now); var ks := KeptRows(rows);
      |rs| == |ks| && forall k :: 0 <= k < |ks| ==> ks[k] < |rows|
    ensures var ks := KeptRows(rows);
      forall k, k' :: 0 <= k < k' < |ks| ==> ks[k] < ks[k']
    ensures var rs := TableRecords(rows, headers, base, ids, now); var ks := KeptRows(rows);
      "numero" !in headers ==>
        forall k :: 0 <= k < |rs| ==> "numero" in rs[k] && rs[k]["numero"] == VInt(ks[k] + 1)
  {
    CollectKept(rows, Filled, RowBuilder(headers, ids, now), base);
    PositionsSpec(rows, Filled);
    var rs, ks := TableRecords(rows, headers, base, ids, now), KeptRows(rows);
    if "numero" !in headers {
      forall k | 0 <= k < |rs| ensures "numero" in rs[k] && rs[k]["numero"] == VInt(ks[k] + 1) {
        TableRecordNumero(headers, rows[ks[k]], ks[k], ids(base + k), now);
      }
    }
  }

  /**
   * At most ten records, one per examined row with at least three cells; when
   * no header is `numero`, record k's numero is its row's index + 1, so the
   * numeros lie in 1..10 and strictly increase, with gaps at skipped rows.
   */
  lemma TableStrategyNumbering(table: seq<Row>, base: nat, ids: nat -> string, now: string)
    ensures var rs := TableStrategy(table, base, ids, now);
      |rs| <= MAX_RECORDS && |rs| == |KeptRows(Examined(table))|
    ensures var ks := KeptRows(Examined(table));
      forall k :: 0 <= k < |ks| ==> 1 <= ks[k] + 1 <= MAX_RECORDS
    ensures var rs := TableStrategy(table, base, ids, now); var ks := KeptRows(Examined(table));
      "numero" !in Headers(table) ==>
        forall k :: 0 <= k < |rs| ==> "numero" in rs[k] && rs[k]["numero"] == VInt(ks[k] + 1)
    ensures var rs := TableStrategy(table, base, ids, now); var ks := KeptRows(Examined(table));
      forall k, k' :: 0 <= k < k' < |rs| ==> ks[k] < ks[k']
  {
    TableRecordsNumbering(Examined(table), Headers(table), base, ids, now);
  }

  /** With no header named `numero`, row i's record keeps numero i + 1. */
  lemma TableRecordNumero(headers: seq<string>, row: Row, i: nat, id: string, now: string)
    requires "numero" !in headers
    ensures var r := TableRecord(headers, row, i, id, now); "numero" in r && r["numero"] == VInt(i + 1)
  {
    forall j | 0 <= j < |row| ensures KeyFor(headers, j) != "numero" {
      KeyForMetadata(headers, j);
    }
    FillCellsUntouched(Metadata(id, i + 1, now, TABLE_TAG, PAGE_URL), headers, row, |row|, "numero");
  }

  /** Every table record keeps the metadata's `id` key (a header can overwrite its value, not remove it). */
  lemma TableStrategyKeyed(table: seq<Row>, base: nat, ids: nat -> string, now: string)
    ensures Keyed(TableStrategy(table, base, ids, now))
  {
    var ex, headers := Examined(table), Headers(table);
    CollectKept(ex, Filled, RowBuilder(headers, ids, now), base);
    var rs, ks := TableStrategy(table, base, ids, now), KeptRows(ex);
    forall r | r in rs ensures "id" in r {
      var k :| 0 <= k < |rs| && rs[k] == r;
      var row := ex[ks[k]];
      var meta := Metadata(ids(base + k), ks[k] + 1, now, TABLE_TAG, PAGE_URL);
      assert r == FillCells(meta, headers, row, |row|);
      FillCellsKeys(meta, headers, row, |row|);
      assert "id" in meta;
    }
  }

  /** A table of more than one row whose data rows all have three cells gives min(rows - 1, 10) records. */
  lemma TableStrategyFullRows(table: seq<Row>, base: nat, ids: nat -> string, now: string)
    requires |table| > 1
    requires forall i :: 1 <= i < |table| ==> |table[i]| >= MIN_CELLS
    ensures |TableStrategy(table, base, ids, now)| == Min(|table| - 1, MAX_RECORDS)
  {
    var ex := Examined(table);
    CollectKept(ex, Filled, RowBuilder(Headers(table), ids, now), base);
    forall i | 0 <= i < |ex| ensures |ex[i]| >= MIN_CELLS {
      assert ex[i] == table[i + 1];
    }
    PositionsAll(ex, Filled);
  }

  /**
   * In a kept row's record, a cell whose key no later cell reuses holds its
   * text, even over a metadata key.
   */
  lemma TableRecordCells(headers: seq<string>, row: Row, i: nat, id: string, now: string, j: nat)
    requires j < |row|
    requires forall j' :: j < j' < |row| ==> KeyFor(headers, j') != KeyFor(headers, j)
    ensures var r := TableRecord(headers, row, i, id, now);
      KeyFor(headers, j) in r && r[KeyFor(headers, j)] == VStr(row[j])
  {
    FillCellsLastWins(Metadata(id, i + 1, now, TABLE_TAG, PAGE_URL), headers, row, |row|, j);
  }

  /** The inner loop: each cell's text written under its header, or `campo_<j>` past the headers. */
  method FillRow(meta: Record, headers: seq<string>, cells: Row) returns (sismo: Record)
    ensures sismo == FillCells(meta, headers, cells, |cells|)
  {
    sismo := meta;
    for j := 0 to |cells|
      invariant sismo == FillCells(meta, headers, cells, j)
    {
      var headerName := if j < |headers| then headers[j] else "campo_" + NatToString(j);
      sismo := sismo[headerName := VStr(cells[j])];
    }
  }

  /** The row loop: each examined row with at least three cells appends its record. */
  method ScrapeRows(acc: seq<Record>, examined: seq<Row>, headers: seq<string>, ids: nat -> string, now: string)
    returns (out: seq<Record>)
    ensures out == acc + TableRecords(examined, headers, |acc|, ids, now)
  {
    out := acc;
    for i := 0 to |examined|
      invariant out == acc + TableRecords(examined[..i], headers, |acc|, ids, now)
    {
      var cells := examined[i];
      assert examined[..i + 1][..i] == examined[..i];
      if |cells| >= MIN_CELLS {
        var meta := Metadata(ids(|out|), i + 1, now, TABLE_TAG, PAGE_URL);
        var sismo := FillRow(meta, headers, cells);
        out := out + [sismo];
      }
    }
    assert examined[..|examined|] == examined;
  }

  /** Lines 139-177 on the first table, appending each kept row's record to the list. */
  method ScrapeTable(acc: seq<Record>, table: seq<Row>, ids: nat -> string, now: string) returns (out: seq<Record>)
    ensures out == acc + TableStrategy(table, |acc|, ids, now)
  {
    var rows := table;
    var headers: seq<string> := [];
    if rows != [] {
      headers := rows[0];
    }
    if headers == [] {
      headers := DEFAULT_HEADERS;
    }
    var dataRows := if |rows| > 1 then rows[1..] else rows;
    out := ScrapeRows(acc, Prefix(dataRows, MAX_RECORDS), headers, ids, now);
  }
}

=== FILE: values.dfy ===
/**
 * Values that flow through the scraper: decoded JSON (as Python's json module
 * returns it), the records built from them (Python dicts keyed by strings),
 * and the exceptions the handler turns into error records.  Also the pieces
 * of Python's built-in behaviour the handler leans on: str() of a decoded
 * value, dict.update with an arbitrary value, slicing with [:n], and the
 * decimal rendering used by f-strings.
 */
module Values {

  datatype Option<+T> = None | Some(value: T)

  datatype Result<+T, +E> = Ok(value: T) | Err(error: E)

  /** A decoded JSON value.  Objects keep their members in document order. */
  datatype Value =
    | VNull
    | VBool(b: bool)
    | VInt(i: int)
    | VStr(s: string)
    | VList(items: seq<Value>)
    | VObj(entries: seq<Entry>)

  datatype Entry = Entry(key: string, val: Value)

  /** A record is a Python dict from field name to value. */
  type Record = map<string, Value>

  /**
   * An exception that reaches the handler's outer try: a requests
   * RequestException (only its text matters) or a Python exception the
   * model raises itself.
   */
  datatype Failure =
    | RequestFailure(text: string)
    | GeneralFailure(error: PyError)

  /** The Python exceptions the modelled code can raise outside any inner handler. */
  datatype PyError =
    | NotIterable(scalar: Scalar)       // TypeError from dict.update(<scalar>)
    | ElementLength(length: nat)        // ValueError from dict.update(<non-pair sequence>)
    | ElementNotSequence                // TypeError from dict.update([<scalar>, ...])
    | NotSubscriptable(scalar: Scalar)  // TypeError from <scalar>[:n]
    | SliceKey(stop: nat)               // KeyError from <dict>[:n]
    | UnboundLocal(name: string)        // UnboundLocalError

  /** The JSON scalars that are neither iterable nor subscriptable. */
  datatype Scalar = NoneType | BoolType | IntType

  /** `type(v).__name__` of a scalar. */
  function ScalarName(t: Scalar): string
  {
    match t
    case NoneType => "NoneType"
    case BoolType => "bool"
    case IntType => "int"
  }

  /** `type(e).__name__` */
  function ErrorTypeName(e: PyError): string
  {
    match e
    case NotIterable(_) => "TypeError"
    case ElementLength(_) => "ValueError"
    case ElementNotSequence => "TypeError"
    case NotSubscriptable(_) => "TypeError"
    case SliceKey(_) => "KeyError"
    case UnboundLocal(_) => "UnboundLocalError"
  }

  /** `str(e)`, in the wording of Python 3.12. */
  function ErrorMessage(e: PyError): string
  {
    match e
    case NotIterable(t) => "'" + ScalarName(t) + "' object is not iterable"
    case ElementLength(n) => "dictionary update sequence element #0 has length " + NatToString(n) + "; 2 is required"
    case ElementNotSequence => "cannot convert dictionary update sequence element #0 to a sequence"
    case NotSubscriptable(t) => "'" + ScalarName(t) + "' object is not subscriptable"
    case SliceKey(n) => "slice(None, " + NatToString(n) + ", None)"
    case UnboundLocal(x) => "cannot access local variable '" + x + "' where it is not associated with a value"
  }

  function Min(a: int, b: int): int
  {
    if a <= b then a else b
  }

  /** Python's `s[:n]` for a non-negative n. */
  function Prefix<T>(s: seq<T>, n: nat): (r: seq<T>)
    ensures |r| == Min(n, |s|)
    ensures r <= s
  {
    if n <= |s| then s[..n] else s
  }

  /** Python truthiness of a decoded value. */
  predicate Truthy(v: Value)
  {
    match v
    case VNull => false
    case VBool(b) => b
    case VInt(i) => i != 0
    case VStr(s) => s != []
    case VList(xs) => xs != []
    case VObj(es) => es != []
  }

  /** The positions of the elements that satisfy p, in increasing order: which items a filtering loop keeps. */
  function Positions<T>(xs: seq<T>, p: T -> bool): (ks: seq<nat>)
    ensures |ks| <= |xs|
  {
    if xs == [] then []
    else
      var n := |xs| - 1;
      Positions(xs[..n], p) + (if p(xs[n]) then [n] else [])
  }

  /** Exactly the positions of the elements satisfying p, each once, in strictly increasing order. */
  lemma {:induction false} PositionsSpec<T>(xs: seq<T>, p: T -> bool)
    ensures var ks := Positions(xs, p);
      forall k :: 0 <= k < |ks| ==> ks[k] < |xs| && p(xs[ks[k]])
    ensures var ks := Positions(xs, p);
      forall k, k' :: 0 <= k < k' < |ks| ==> ks[k] < ks[k']
    ensures var ks := Positions(xs, p);
      forall i :: 0 <= i < |xs| && p(xs[i]) ==> i in ks
  {
    if xs != [] {
      var n := |xs| - 1;
      PositionsSpec(xs[..n], p);
      var ks := Positions(xs, p);
      forall k | 0 <= k < |Positions(xs[..n], p)| ensures xs[..n][Positions(xs[..n], p)[k]] == xs[Positions(xs[..n], p)[k]] {
      }
      forall i | 0 <= i < |xs| && p(xs[i]) ensures i in ks {
        if i < n {
          assert xs[..n][i] == xs[i];
        } else {
          assert ks[|ks| - 1] == n;
        }
      }
    }
  }

  /** When every element satisfies p, every position is kept. */
  lemma {:induction false} PositionsAll<T>(xs: seq<T>, p: T -> bool)
    requires forall i :: 0 <= i < |xs| ==> p(xs[i])
    ensures |Positions(xs, p)| == |xs|
  {
    if xs != [] {
      var n := |xs| - 1;
      assert forall i :: 0 <= i < n ==> xs[..n][i] == xs[i];
      PositionsAll(xs[..n], p);
    }
  }

  // ---------------------------------------------------------------------
  // Decimal rendering (`str(n)` and f'{n}')

  predicate IsDigits(s: string)
  {
    forall i :: 0 <= i < |s| ==> '0' <= s[i] <= '9'
  }

  function DigitChar(d: nat): (c: char)
    requires d < 10
    ensures '0' <= c <= '9' && (c as int) - ('0' as int) == d
  {
    ('0' as int + d) as char
  }

  /** The decimal digits of n, most significant first, without leading zeros. */
  function NatToString(n: nat): (s: string)
    ensures |s| >= 1 && IsDigits(s)
    ensures |s| > 1 ==> s[0] != '0'
  {
    if n < 10 then [DigitChar(n)] else NatToString(n / 10) + [DigitChar(n % 10)]
  }

  /** The number a string of decimal digits denotes: the inverse of NatToString. */
  function DigitsValue(s: string): nat
    requires IsDigits(s)
  {
    if s == [] then 0
    else DigitsValue(s[..|s| - 1]) * 10 + ((s[|s| - 1] as int) - ('0' as int))
  }

  lemma {:induction false} NatToStringRoundTrip(n: nat)
    ensures DigitsValue(NatToString(n)) == n
  {
    if n >= 10 {
      var s := NatToString(n);
      assert s[..|s| - 1] == NatToString(n / 10);
      NatToStringRoundTrip(n / 10);
    }
  }

  /** Distinct numbers render differently, so `campo_<j>` names never collide. */
  lemma NatToStringInjective(a: nat, b: nat)
    ensures NatToString(a) == NatToString(b) ==> a == b
  {
    NatToStringRoundTrip(a);
    NatToStringRoundTrip(b);
  }

  function IntToString(i: int): string
  {
    if i < 0 then "-" + NatToString(-i) else NatToString(i)
  }

  // ---------------------------------------------------------------------
  // str() of a decoded value

  function Join(parts: seq<string>, sep: string): string
  {
    if parts == [] then ""
    else if |parts| == 1 then parts[0]
    else parts[0] + sep + Join(parts[1..], sep)
  }

  /** The quote Python's repr chooses: double only when the text has a single quote and no double. */
  function QuoteFor(s: string): char
  {
    if '\'' in s && '"' !in s then '"' else '\''
  }

  function EscapeFor(s: string, q: char): string
  {
    if s == [] then ""
    else
      var c := s[0];
      var e :=
        if c == '\\' then "\\\\"
        else if c == q then ['\\', q]
        else if c == '\n' then "\\n"
        else if c == '\r' then "\\r"
        else if c == '\t' then "\\t"
        else [c];
      e + EscapeFor(s[1..], q)
  }

  /** Python's repr of a str. */
  function StrRepr(s: string): string
  {
    var q := QuoteFor(s);
    [q] + EscapeFor(s, q) + [q]
  }

  /** Reads an escaped text back: a backslash and the next character stand for one character. */
  function Unescape(e: string): string
  {
    if e == [] then ""
    else if e[0] == '\\' && |e| >= 2 then
      var c := if e[1] == 'n' then '\n' else if e[1] == 'r' then '\r' else if e[1] == 't' then '\t' else e[1];
      [c] + Unescape(e[2..])
    else [e[0]] + Unescape(e[1..])
  }

  /** Reads a Python str literal back: the text between the quotes, unescaped. */
  function ReadStr(r: string): string
  {
    if |r| < 2 then "" else Unescape(r[1..|r| - 1])
  }

  /** Unescaping undoes the escaping for either quote. */
  lemma {:induction false} EscapeRoundTrip(s: string, q: char)
    requires q in "'\""
    ensures Unescape(EscapeFor(s, q)) == s
  {
    if s != [] {
      var c := s[0];
      var rest := EscapeFor(s[1..], q);
      EscapeRoundTrip(s[1..], q);
      var e := EscapeFor(s, q);
      if c == '\\' || c == q || c == '\n' || c == '\r' || c == '\t' {
        assert e[0] == '\\' && |e| >= 2 && e[2..] == rest;
        assert Unescape(e) == [c] + Unescape(rest);
      } else {
        assert e == [c] + rest && e[1..] == rest;
      }
    }
  }

  /** The repr of a str reads back as that str. */
  lemma StrReprRoundTrip(s: string)
    ensures ReadStr(StrRepr(s)) == s
    ensures ReadStr(Repr(VStr(s))) == s
  {
    var q := QuoteFor(s);
    var r := StrRepr(s);
    assert r[1..|r| - 1] == EscapeFor(s, q);
    EscapeRoundTrip(s, q);
  }

  /** A text with no quote, backslash or line control character is shown between single quotes as it is. */
  lemma {:induction false} EscapePlain(s: string, q: char)
    requires q in "'\""
    requires forall i :: 0 <= i < |s| ==> s[i] !in "'\"\\\n\r\t"
    ensures EscapeFor(s, q) == s
  {
    if s != [] {
      EscapePlain(s[1..], q);
      assert s == [s[0]] + s[1..];
    }
  }

  lemma StrReprPlain(s: string)
    requires forall i :: 0 <= i < |s| ==> s[i] !in "'\"\\\n\r\t"
    ensures StrRepr(s) == "'" + s + "'"
  {
    assert '\'' !in s;
    EscapePlain(s, '\'');
  }

  /**
   * The positions of the members that name a key for the first time, in
   * document order: a decoded dict holds each key once, where it first
   * appeared.
   */
  function FirstPositions(es: seq<Entry>): (ps: seq<nat>)
    ensures forall j :: 0 <= j < |ps| ==> ps[j] < |es|
  {
    if es == [] then []
    else
      var n := |es| - 1;
      var prev := FirstPositions(es[..n]);
      if Find(es[..n], es[n].key).None? then prev + [n] else prev
  }

  /** A listed position is the first member that names its key. */
  lemma {:induction false} FirstPositionsFirst(es: seq<Entry>)
    ensures forall j :: 0 <= j < |FirstPositions(es)| ==>
      forall q :: 0 <= q < FirstPositions(es)[j] ==> es[q].key != es[FirstPositions(es)[j]].key
  {
    if es != [] {
      var n := |es| - 1;
      var init := es[..n];
      FirstPositionsFirst(init);
      var prev := FirstPositions(init);
      var ps := FirstPositions(es);
      var novel := Find(init, es[n].key).None?;
      assert ps == if novel then prev + [n] else prev;
      forall j, q | 0 <= j < |ps| && 0 <= q < ps[j] ensures es[q].key != es[ps[j]].key {
        if j < |prev| {
          assert ps[j] == prev[j] && init[q] == es[q] && init[prev[j]] == es[ps[j]];
        } else {
          assert ps[j] == n && init[q] == es[q];
        }
      }
    }
  }

  /** The key of member i is named at one of the listed positions. */
  predicate Listed(es: seq<Entry>, i: nat)
    requires i < |es|
  {
    exists j :: 0 <= j < |FirstPositions(es)| && es[FirstPositions(es)[j]].key == es[i].key
  }

  /** Every key of the object is listed. */
  lemma FirstPositionsCover(es: seq<Entry>)
    ensures forall i :: 0 <= i < |es| ==> Listed(es, i)
  {
    forall i | 0 <= i < |es| ensures Listed(es, i) {
      FirstPositionsCoverAt(es, i);
    }
  }

  lemma {:induction false} FirstPositionsCoverAt(es: seq<Entry>, i: nat)
    requires i < |es|
    ensures Listed(es, i)
  {
    var n := |es| - 1;
    var init := es[..n];
    var prev := FirstPositions(init);
    var ps := FirstPositions(es);
    var novel := Find(init, es[n].key).None?;
    assert ps == if novel then prev + [n] else prev;
    if i == n && novel {
      assert ps[|prev|] == n;
      assert 0 <= |prev| < |ps| && es[ps[|prev|]].key == es[i].key;
    } else {
      var q: nat := i;
      if i == n {
        q :| 0 <= q < n && init[q].key == es[n].key;
      }
      assert q < n && init[q].key == es[i].key;
      FirstPositionsCoverAt(init, q);
      var j :| 0 <= j < |prev| && init[prev[j]].key == init[q].key;
      assert ps[j] == prev[j] && init[prev[j]] == es[ps[j]];
      assert 0 <= j < |ps| && es[ps[j]].key == es[i].key;
    }
  }

  /** The positions follow document order, so no key is listed twice. */
  lemma FirstPositionsOrdered(es: seq<Entry>)
    ensures forall j, j' :: 0 <= j < j' < |FirstPositions(es)| ==>
      FirstPositions(es)[j] < FirstPositions(es)[j'] && es[FirstPositions(es)[j]].key != es[FirstPositions(es)[j']].key
  {
    FirstPositionsFirst(es);
    FirstPositionsIncreasing(es);
  }

  lemma {:induction false} FirstPositionsIncreasing(es: seq<Entry>)
    ensures forall j, j' :: 0 <= j < j' < |FirstPositions(es)| ==> FirstPositions(es)[j] < FirstPositions(es)[j']
  {
    if es != [] {
      var n := |es| - 1;
      var prev := FirstPositions(es[..n]);
      FirstPositionsIncreasing(es[..n]);
      var ps := FirstPositions(es);
      assert ps == if Find(es[..n], es[n].key).None? then prev + [n] else prev;
    }
  }

  /** The position of the last member named k, whose value the decoded dict keeps; |es| when there is none. */
  function LastIndex(es: seq<Entry>, k: string): (i: nat)
    ensures i <= |es|
    ensures i < |es| <==> Find(es, k).Some?
    ensures i < |es| ==> es[i].key == k && Find(es, k) == Some(es[i].val)
  {
    if es == [] then 0
    else if es[|es| - 1].key == k then |es| - 1
    else
      var j := LastIndex(es[..|es| - 1], k);
      if j < |es| - 1 then j else |es|
  }

  /**
   * Python's repr of a decoded value.  A dict shows each key once, at its
   * first position, with the value of its last occurrence.
   */
  function Repr(v: Value): (r: string)
    ensures v.VList? ==> |r| >= 2 && r[0] == '[' && r[|r| - 1] == ']'
    ensures v.VObj? ==> |r| >= 2 && r[0] == '{' && r[|r| - 1] == '}'
    ensures v.VStr? ==> |r| >= 2 && r[0] == r[|r| - 1] && r[0] in "'\""
    decreases v
  {
    match v
    case VNull => "None"
    case VBool(b) => if b then "True" else "False"
    case VInt(i) => IntToString(i)
    case VStr(s) => StrRepr(s)
    case VList(xs) =>
      "[" + Join(seq(|xs|, i requires 0 <= i < |xs| => Repr(xs[i])), ", ") + "]"
    case VObj(es) =>
      var ps := FirstPositions(es);
      "{" + Join(seq(|ps|, j requires 0 <= j < |ps| =>
                       StrRepr(es[ps[j]].key) + ": " + Repr(es[LastIndex(es, es[ps[j]].key)].val)), ", ") + "}"
  }
  /** A key repeated in an object is shown once, with its later value. */
  lemma ReprRepeatedKey()
    ensures Repr(VObj([Entry("a", VInt(1)), Entry("a", VInt(2))])) == "{'a': 2}"
  {
    var es := [Entry("a", VInt(1)), Entry("a", VInt(2))];
    assert es[..1] == [Entry("a", VInt(1))] && es[..1][..0] == [];
    assert FirstPositions(es[..1]) == [0];
    assert Find(es[..1], "a") == Some(VInt(1));
    assert FirstPositions(es) == [0];
    assert LastIndex(es, "a") == 1;
    assert StrRepr("a") == "'a'";
    assert IntToString(2) == "2";
  }


  /** Python's str of a decoded value: a string is itself, anything else its repr. */
  function PyStr(v: Value): string
  {
    if v.VStr? then v.s else Repr(v)
  }

  // ---------------------------------------------------------------------
  // Objects as dicts and dict.update

  /** The value of the last member named k (Python keeps the last of repeated keys). */
  function Find(es: seq<Entry>, k: string): (r: Option<Value>)
    ensures r.Some? <==> exists i :: 0 <= i < |es| && es[i].key == k
  {
    if es == [] then None
    else if es[|es| - 1].key == k then Some(es[|es| - 1].val)
    else Find(es[..|es| - 1], k)
  }

  /**
   * `rec.update(obj)`: every member of the object is written over the record
   * in order, so the object's keys win over the record's own.
   */
  function Merge(rec: Record, es: seq<Entry>): Record
  {
    if es == [] then rec
    else
      var last := es[|es| - 1];
      Merge(rec, es[..|es| - 1])[last.key := last.val]
  }

  /** After the update the record has its own keys and the object's; the object's values win. */
  lemma {:induction false} MergeFields(rec: Record, es: seq<Entry>)
    ensures var r := Merge(rec, es); forall k :: k in r <==> (k in rec || Find(es, k).Some?)
    ensures var r := Merge(rec, es);
      forall k :: k in r ==> r[k] == (if Find(es, k).Some? then Find(es, k).value else rec[k])
  {
    if es != [] {
      MergeFields(rec, es[..|es| - 1]);
    }
  }

  /**
   * `rec.update(v)` for a decoded value.  An object merges; an empty list or
   * empty string is a no-op; anything else raises as Python does.
   */
  function Update(rec: Record, v: Value): (r: Result<Record, Failure>)
    ensures r.Ok? <==> v.VObj? || v == VStr([]) || v == VList([])
  {
    match v
    case VObj(es) => Ok(Merge(rec, es))
    case VNull => Err(GeneralFailure(NotIterable(NoneType)))
    case VBool(_) => Err(GeneralFailure(NotIterable(BoolType)))
    case VInt(_) => Err(GeneralFailure(NotIterable(IntType)))
    case VStr(s) => if s == [] then Ok(rec) else Err(GeneralFailure(ElementLength(1)))
    case VList(xs) => if xs == [] then Ok(rec) else Err(GeneralFailure(ElementNotSequence))
  }

  /** A failed update raises ValueError for a string, TypeError for a scalar or a list. */
  lemma UpdateErrors(rec: Record, v: Value)
    ensures var r := Update(rec, v);
      r.Err? ==> r.error.GeneralFailure? &&
                 (ErrorTypeName(r.error.error) == "ValueError" <==> v.VStr?) &&
                 (ErrorTypeName(r.error.error) == "TypeError" <==> !v.VStr?)
  {
  }

  /** A successful update keeps every key the record had. */
  lemma UpdateKeepsKeys(rec: Record, v: Value)
    ensures Update(rec, v).Ok? ==> rec.Keys <= Update(rec, v).value.Keys
  {
    if v.VObj? {
      MergeFields(rec, v.entries);
    }
  }

  /**
   * `v[:n]` iterated: a list gives its first n items, a string its first n
   * characters (each a one-character string); anything else raises.
   */
  function Sliced(v: Value, n: nat): (r: Result<seq<Value>, Failure>)
    ensures r.Ok? <==> v.VList? || v.VStr?
    ensures r.Ok? ==> |r.value| <= n
    ensures v.VStr? ==> r.Ok? && |r.value| == Min(n, |v.s|) &&
                        forall i :: 0 <= i < |r.value| ==> r.value[i] == VStr([v.s[i]])
    ensures r.Err? ==> r.error.GeneralFailure? && (ErrorTypeName(r.error.error) == "KeyError" <==> v.VObj?)
  {
    match v
    case VList(xs) => Ok(Prefix(xs, n))
    case VStr(s) => Ok(seq(Min(n, |s|), i requires 0 <= i < Min(n, |s|) => VStr([s[i]])))
    case VNull => Err(GeneralFailure(NotSubscriptable(NoneType)))
    case VBool(_) => Err(GeneralFailure(NotSubscriptable(BoolType)))
    case VInt(_) => Err(GeneralFailure(NotSubscriptable(IntType)))
    case VObj(_) => Err(GeneralFailure(SliceKey(n)))
  }
}
